=== FILE: README.md ===
# Lockup password vault: a Dafny model of its core logic

Lockup is a password manager. A React Native app keeps an encrypted vault on
the device, and an Express/PostgreSQL backend serves the same vault over
REST. This project models, in Dafny, the sequential logic under the screens
and routes:

- the local vault list kept in AsyncStorage (`VaultStorage`);
- the 6-character unlock code, its 32-bit string hash, setup, verification and reset (`UnlockStorage`);
- the `iv:ciphertext` token format around an abstract AES (`Encryption`);
- the password generator (`PasswordGen`);
- the SQLite handle and its `db_version` metadata (`Sqlite`);
- the bearer-token middleware (`AuthMiddleware`);
- the vault REST routes, including the dynamic `UPDATE … SET` builder (`VaultRoutes`);
- the PostgreSQL pool helpers (`DbPool`).

Supporting modules:

- `Wrappers` holds `Option` and `Result`.
- `JsNumbers` models JavaScript int32 wrap-around, `Number.prototype.toString(radix)` and `parseInt(s, 10)`.
- `JsStrings` models UTF-16 code units, `split`/`join` and `startsWith`.
- `AppStorage` models the AsyncStorage and SecureStore maps.

**Modelling conventions.**

- Every storage engine is an immutable map or sequence.
- A storage call that throws is an explicit input. The fault plan `FailAt(k)` makes calls `0..k-1` succeed and call `k` throw.
- A `Step`/`Outcome` carries the result together with the store after the call. Partial writes before a failure are therefore visible.
- JSON (de)serialisation is the identity on item lists. A stored value that is not a list reads as unparseable.
- Foreign primitives are parameters:
  - AES is a pair of functions;
  - `jwt.verify` is a partial function;
  - the random bytes, `Math.random` draws, the clock, environment variables and the database's answers are all inputs.

**Facts about the code that the model keeps.**

- The unlock code is exactly 6 UTF-16 code units (services/storage/unlock-storage.ts:40-42 and 69-71).
- The raw unlock code is stored as the encryption key. There is no key derivation.
- `hashCode` is a 31-multiplier int32 string hash printed in base 36.
- `DB_VERSION` is the constant 1, written on every init.
- Deleting an absent id from the local vault succeeds silently. The backend's DELETE answers 404 for an absent row.
- The key is read without `await` in `encrypt` and `decrypt`. This is the finding below.

## Model

| member | source | states |
|---|---|---|
| VaultStorage.GetVaultItems | services/storage/vault-storage.ts:18-26 | the stored list when the key holds one; the empty list when the key is absent, the value does not parse, or the read throws |
| VaultStorage.NextId | services/storage/vault-storage.ts:40 | the allocated id is above every existing id, is 1 for an empty list, and otherwise is exactly one past an existing id |
| VaultStorage.AddVaultItem | services/storage/vault-storage.ts:31-58 | succeeds iff the write succeeds; the new item carries the given fields and the id max+1 (1 for an empty list), above all others; the list stored is the old list plus that item at the end; a failed write changes nothing |
| VaultStorage.AddKeepsIdsUnique | services/storage/vault-storage.ts:40-51 | unique ids stay unique, the list grows by one, the old items keep their positions, and the last item is the one returned |
| VaultStorage.AddAfterUnreadableStore | services/storage/vault-storage.ts:21-25 | after a failed read, an add persists a one-element list with id 1, discarding what was stored |
| VaultStorage.FindIndex | services/storage/vault-storage.ts:69 | None iff no item has the id; otherwise the first position holding it |
| VaultStorage.Merge | services/storage/vault-storage.ts:75 | supplied fields replace the item's, the others and `id`/`created_at` are kept |
| VaultStorage.UpdateVaultItem | services/storage/vault-storage.ts:63-81 | NotFound iff no item has the id, and then nothing is written; on success only the first matching item changes, by merging the patch, and the length is kept |
| VaultStorage.UpdateKeepsIdsUnique | services/storage/vault-storage.ts:75-76 | an update keeps ids unique |
| VaultStorage.RemoveId | services/storage/vault-storage.ts:89 | an item survives the filter iff it was present and has another id |
| VaultStorage.RemoveIdConcat | services/storage/vault-storage.ts:89 | the filter distributes over concatenation, so relative order is kept |
| VaultStorage.RemoveAbsentId | services/storage/vault-storage.ts:89 | filtering an absent id returns the list unchanged |
| VaultStorage.DeleteVaultItem | services/storage/vault-storage.ts:86-95 | succeeds iff the write succeeds; the stored list is the filtered one and no longer holds the id; a failed write changes nothing |
| VaultStorage.DeleteAbsentIsNoOp | services/storage/vault-storage.ts:89-90 | deleting an absent id leaves the store exactly as it was and reports success |
| VaultStorage.DeleteIdempotent | services/storage/vault-storage.ts:86-95 | a second delete of the same id changes nothing |
| VaultStorage.DeleteAfterFailedReadWipes | services/storage/vault-storage.ts:88-90 | a delete whose read fails persists the empty list |
| VaultStorage.ClearVault | services/storage/vault-storage.ts:100-107 | on success the store is the old one minus the vault key, and nothing else; on failure nothing changes |
| VaultStorage.ClearThenGetIsEmpty | services/storage/vault-storage.ts:102 | after a clear the vault reads back empty |
| JsNumbers.ToInt32 | services/storage/unlock-storage.ts:29-30 | the result is a signed 32-bit value congruent to the input modulo 2^32 |
| JsNumbers.RadixRoundTrip | services/storage/unlock-storage.ts:32 | parsing the base-36 text of any integer gives that integer back |
| JsNumbers.RadixInjective | services/storage/unlock-storage.ts:32 | different integers print as different base-36 texts |
| UnlockStorage.HashUnits | services/storage/unlock-storage.ts:25-31 | the running hash of a code-unit sequence is always a signed 32-bit integer |
| UnlockStorage.JsHashStepIs31 | services/storage/unlock-storage.ts:29-30 | the shift-subtract-add step followed by `hash & hash` equals `31*h + c` wrapped to int32 |
| UnlockStorage.HashIsWrappedPoly | services/storage/unlock-storage.ts:25-31 | the hash is the polynomial sum of c_i·31^(n-1-i), wrapped once to int32 |
| UnlockStorage.HashCodeEqual | services/storage/unlock-storage.ts:25-33 | two codes print the same hash text iff their int32 hashes are equal |
| UnlockStorage.HashOfEmpty | services/storage/unlock-storage.ts:26-32 | the empty string hashes to "0" |
| UnlockStorage.HashOfAaAaAa | services/storage/unlock-storage.ts:25-33 | "AaAaAa" hashes to the int32 1952508096 |
| UnlockStorage.HashOfBBBBBB | services/storage/unlock-storage.ts:25-33 | "BBBBBB" hashes to the same int32, 1952508096 |
| UnlockStorage.HashOfZzzzzzIsNegative | services/storage/unlock-storage.ts:25-33 | "zzzzzz" wraps to a negative int32 and its hash text starts with '-' |
| UnlockStorage.IsAppConfigured | services/storage/unlock-storage.ts:11-19 | true iff the read succeeds and the flag is exactly "true" |
| UnlockStorage.SetupSecretCode | services/storage/unlock-storage.ts:39-61 | a length other than 6 fails before any write; success iff the length is 6 and all three writes succeed, and then the stores hold the hash, the flag and the raw code; a write that throws returns the stores with exactly the earlier writes applied (none, the hash, or the hash and the flag) |
| UnlockStorage.SetupFailingAtKeyWrite | services/storage/unlock-storage.ts:45-60 | a setup whose key write throws leaves the new code verifying and the app configured, while the stored encryption key is still the old one |
| UnlockStorage.VerifySecretCode | services/storage/unlock-storage.ts:68-87 | true iff the length is 6, the read succeeds, a hash is stored, and it equals the candidate's hash |
| UnlockStorage.GetEncryptionKey | services/storage/unlock-storage.ts:93-100 | the stored raw code, or None when it is absent or the read throws |
| UnlockStorage.ResetApp | services/storage/unlock-storage.ts:106-116 | success iff all four deletions succeed, and then exactly the hash, the key, the flag and the vault list are removed; a deletion that throws returns the stores with exactly the earlier deletions applied |
| UnlockStorage.InterruptedResetLocksOut | services/storage/unlock-storage.ts:106-116 | a reset of a configured app that throws on the second or third deletion leaves the app configured while no code verifies |
| UnlockStorage.SetupThenUnlock | services/storage/unlock-storage.ts:45-55 | after setup with c: c verifies, the app is configured, and the encryption key is c |
| UnlockStorage.VerifyAfterSetup | services/storage/unlock-storage.ts:69-81 | after setup, a candidate verifies iff it has length 6 and the same int32 hash |
| UnlockStorage.CollidingCodeUnlocks | services/storage/unlock-storage.ts:80-81 | "BBBBBB" unlocks a vault set up with "AaAaAa" |
| UnlockStorage.ResetForgetsEverything | services/storage/unlock-storage.ts:106-116 | after a reset: not configured, no key, no code verifies, vault empty |
| JsStrings.JoinSplit | services/crypto/encryption.ts:40 | joining the pieces of a split on ':' rebuilds the text |
| JsStrings.SplitJoin | services/crypto/encryption.ts:40 | splitting the join of ':'-free pieces gives the pieces back |
| Encryption.HexRoundTrip | services/crypto/encryption.ts:8-10 | hex decoding of the hex encoding returns the bytes |
| Encryption.GenerateIV | services/crypto/encryption.ts:6-11 | 16 bytes give 32 lowercase hex digits that decode back to the bytes |
| Encryption.ParseToken | services/crypto/encryption.ts:40-41 | either MalformedToken, or two non-empty ':'-free halves that are the whole token or the head of it up to a further ':' |
| Encryption.TokenRoundTrip | services/crypto/encryption.ts:26-40 | a token built from two non-empty ':'-free halves parses back into them |
| Encryption.ExtraSegmentsIgnored | services/crypto/encryption.ts:40 | pieces after the second are ignored |
| Encryption.NoSeparatorIsMalformed | services/crypto/encryption.ts:40-41 | a token with no ':' is malformed |
| Encryption.NotAValidTokenRejected | services/crypto/encryption.ts:40-41 | "not-a-valid-token" is rejected as malformed |
| Encryption.EmptyHalfIsMalformed | services/crypto/encryption.ts:41 | an empty IV or ciphertext half is malformed |
| Encryption.Encrypt | services/crypto/encryption.ts:13-34 | NoKey iff the key is missing or empty; otherwise the token is the hex IV, ':', and the cipher's encryption of the plaintext under the key and that IV; the IV decodes to the random bytes |
| Encryption.Decrypt | services/crypto/encryption.ts:36-63 | NoKey without a key; MalformedToken for a bad token; DecryptionFailed iff the cipher yields ""; otherwise exactly the cipher's plaintext for the token's IV and ciphertext under the key |
| Encryption.EncryptDecryptRoundTrip | services/crypto/encryption.ts:20-54 | with an invertible base64 cipher, decrypt(encrypt(p)) is p iff p is non-empty; the empty plaintext fails |
| Encryption.EncryptAsWritten | services/crypto/encryption.ts:13-34 | as written, encrypt never fails, whatever is stored |
| Encryption.UnawaitedKeyIsIgnored | services/crypto/encryption.ts:14-15 | as written, encrypt succeeds with no key stored, and its output does not depend on the stored code |
| Encryption.DecryptAsWritten | services/crypto/encryption.ts:36-63 | as written, decrypt never reports a missing key; otherwise it parses and decrypts as the awaited version does, with the Promise as the key |
| Encryption.UnawaitedDecryptKeyIsIgnored | services/crypto/encryption.ts:37-38 | as written, decrypt does not fail for a missing key, where the awaited version does, and its result does not depend on the stored code |
| PasswordGen.Resolve | services/crypto/password-gen.ts:17-23 | defaults are length 16, upper, lower and numbers on, symbols off; a length of 0 also becomes 16 |
| PasswordGen.Charset | services/crypto/password-gen.ts:25-31 | never empty; a character belongs iff an enabled class holds it, or it is lowercase when every class is off |
| PasswordGen.CharsetOrder | services/crypto/password-gen.ts:25-29 | with every class on, the charset is lower, upper, numbers, symbols in that order, 88 characters |
| PasswordGen.AllOffFallsBackToLowercase | services/crypto/password-gen.ts:31 | with every class off, the charset is the lowercase alphabet |
| PasswordGen.PickIndex | services/crypto/password-gen.ts:35 | `floor(r * n)` for r in [0,1) is a valid index |
| PasswordGen.GeneratePassword | services/crypto/password-gen.ts:16-39 | the output has the effective length (0 for a negative one), and each character is the charset entry the draw selects |
| PasswordGen.DefaultsHaveNoSymbols | services/crypto/password-gen.ts:11-35 | with default options, no symbol appears |
| Sqlite.InitDatabase | services/database/sqlite.ts:11-40 | success iff the open, each of the two CREATE TABLE statements and the INSERT OR REPLACE succeed; the handle is set once the open succeeds; on success both tables exist and `db_version` is "1" |
| Sqlite.GetDatabase | services/database/sqlite.ts:45-50 | the handle iff one is open, NotInitialised otherwise |
| Sqlite.GetDatabaseVersion | services/database/sqlite.ts:55-67 | 0 when no handle is open, the read throws, or the row is absent; otherwise the stored text parsed as decimal |
| Sqlite.CloseDatabase | services/database/sqlite.ts:72-78 | a no-op without a handle; on success the handle is cleared and the file is untouched |
| Sqlite.InitThenVersion | services/database/sqlite.ts:30-62 | after a successful init the version reads back as 1 |
| Sqlite.InitIdempotent | services/database/sqlite.ts:15-33 | a second successful init leaves the state as the first did |
| Sqlite.InitPreservesRows | services/database/sqlite.ts:15-22 | re-initialising keeps existing vault rows |
| Sqlite.CloseThenUnavailable | services/database/sqlite.ts:46-77 | after a close, getDatabase fails and the version reads as 0 |
| AuthMiddleware.Authenticate | backend/src/middleware/auth.middleware.js:3-19 | 401 "Token manquant" without an exact "Bearer " prefix; 401 "Token invalide ou expiré" when verification fails; otherwise next with the payload of the text after the prefix |
| AuthMiddleware.BearerRoundTrip | backend/src/middleware/auth.middleware.js:10 | the token after "Bearer " is exactly what was appended |
| AuthMiddleware.LowerCaseSchemeRejected | backend/src/middleware/auth.middleware.js:6-7 | "bearer " in lower case is rejected as a missing token |
| VaultRoutes.SortDesc | backend/src/routes/vault.routes.js:11 | newest first, and a permutation of the input |
| VaultRoutes.ListItems | backend/src/routes/vault.routes.js:8-19 | 500 when the query throws; otherwise 200 with exactly the caller's items, newest first |
| VaultRoutes.GetItem | backend/src/routes/vault.routes.js:21-34 | 500 when the query throws; otherwise 404 iff no row has (id, user), and 200 iff one does, returning a row of that id owned by the caller |
| VaultRoutes.CreateItem | backend/src/routes/vault.routes.js:36-52 | 400 unless all three fields are truthy; 201 iff they are and the query succeeds, appending the row with the next SERIAL id; 500 with the table unchanged when the INSERT throws; otherwise the table is unchanged |
| VaultRoutes.BuildUpdatePlaceholders | backend/src/routes/vault.routes.js:62-75 | SET lists exactly the truthy fields in the order pseudo, url, password_encrypted, numbered $1..$k; id is $(k+1), user is $(k+2); each $i binds values[i-1] |
| VaultRoutes.BuildUpdateLayout | backend/src/routes/vault.routes.js:62-71 | the SET entries and the values are the selected columns numbered from 1, followed by id and user |
| VaultRoutes.FullUpdateSql | backend/src/routes/vault.routes.js:66-75 | with all three fields the text is `SET pseudo=$1, url=$2, password_encrypted=$3 WHERE id=$4 AND user_id=$5` |
| VaultRoutes.UrlOnlyUpdateSql | backend/src/routes/vault.routes.js:66-75 | with only a url the text is `SET url=$1 WHERE id=$2 AND user_id=$3` and the values are url, id, user |
| VaultRoutes.BuiltUpdateMeansMerge | backend/src/routes/vault.routes.js:62-77 | running the built statement merges the truthy body fields into the row with (id, user) and leaves every other row as it was |
| VaultRoutes.ApplySetKeepsKey | backend/src/routes/vault.routes.js:75 | SET never changes a row's id, owner or creation time |
| VaultRoutes.UnmatchedUpdateChangesNothing | backend/src/routes/vault.routes.js:74-78 | an UPDATE whose RETURNING set is empty for (id, user) has changed no row, so the 404 leaves the table as it was |
| VaultRoutes.RunUpdate | backend/src/routes/vault.routes.js:73-79 | 404 iff no row has (id, user), leaving the table alone; otherwise 200 with the merged row |
| VaultRoutes.UpdateItem | backend/src/routes/vault.routes.js:54-84 | 400 when no field is truthy; 500 when the query throws; otherwise 404 iff no row matches, table unchanged, and 200 iff one does, with the table the merge |
| VaultRoutes.DeleteItem | backend/src/routes/vault.routes.js:86-99 | 500 when the query throws; otherwise 404 iff no row has (id, user), table unchanged, and 204 iff one does, with the matching row removed |
| VaultRoutes.Handle | backend/src/routes/vault.routes.js:6 | a request the middleware rejects gets 401 with the middleware's own error message and changes nothing; an accepted request never gets 401 |
| VaultRoutes.HandleKeepsTableValid | backend/src/routes/vault.routes.js:36-99 | every route keeps ids unique and below the SERIAL counter |
| VaultRoutes.HandleIsolatesUsers | backend/src/routes/vault.routes.js:8-99 | whatever the request, other users' rows are unchanged and in order, and every item returned belongs to the caller |
| DbPool.InitDbPool | backend/src/db/pool.js:5-32 | DATABASE_URL wins; otherwise PGHOST, PGUSER and PGDATABASE must all be non-empty or the process exits with 1; port, password and SSL as configured |
| DbPool.PortOf | backend/src/db/pool.js:19 | 5432 when PGPORT is empty or unset; otherwise parseInt's result, NaN included |
| DbPool.SslOf | backend/src/db/pool.js:11-23 | TLS iff PGSSL is exactly "true" |
| DbPool.PortRoundTrip | backend/src/db/pool.js:19 | a decimal PGPORT is the port the pool uses |
| DbPool.NonNumericPortIsNaN | backend/src/db/pool.js:19 | a non-numeric PGPORT gives a NaN port, not the default |
| DbPool.UrlIgnoresHostVariables | backend/src/db/pool.js:6-12 | with DATABASE_URL set, changing any variable other than PGSSL changes nothing |
| DbPool.Query | backend/src/db/pool.js:34-41 | no pool: an error; failed connect: ConnectFailed; otherwise the statement's result or its error |
| DbPool.QueryReleasesClient | backend/src/db/pool.js:35-40 | on every path the pool ends with as many clients checked out as before |
| DbPool.WaitForDb | backend/src/db/pool.js:64-78 | no attempt and success for retries <= 0; stops at the first success; on failure rethrows the last error after exactly `retries` attempts; waits delayMs·k after failed attempt k except the last |
| DbPool.BackoffTotal | backend/src/db/pool.js:75 | the total wait over k failed attempts is delayMs·k(k+1)/2 |
| DbPool.DefaultBackoffTotal | backend/src/db/pool.js:64-75 | with the defaults, the waits before the last error add up to 45000 ms |
| DbPool.WaitForDbAnswering | backend/src/db/pool.js:64-71 | a database that answers on attempt k is probed k times after k-1 waits |

## Left out

- AES-CBC/PKCS7 and `CryptoJS.enc.Hex.parse` are not modelled. The cipher is a pair of functions, and round trips assume it is invertible and emits base64.
- `expo-crypto` random bytes and `Math.random` are inputs. The draws are real numbers in [0,1), not IEEE doubles.
- `jwt.verify` and `JWT_SECRET` are a partial function from token to claims.
- The storage and database engines are in-memory maps and sequences: AsyncStorage, SecureStore, expo-sqlite and pg. Their I/O, concurrency and latency are not modelled.
- `ensureTables` in backend/src/db/pool.js is two `CREATE TABLE IF NOT EXISTS` statements. It has no logic beyond the engine.
- `getPool` only returns the pool variable.
- Sqlite.InitDatabase: the single `execAsync` that runs both CREATE TABLE statements is modelled as two steps, one per statement, each of which can throw. A throw in the second statement leaves the first table created.
- Logging (`console.*`, `debugLog`) is not modelled. Neither are the timers `setTimeout` waits on: the waits are recorded as a list.
- VaultStorage.NextId: `Math.max(...ids)` on a very large list would overflow the call stack. Ids are unbounded integers, not doubles.
- VaultStorage.GetVaultItems: a stored JSON value that parses but is not an array is treated as unparseable.
- VaultStorage.UpdateVaultItem: `data` with keys whose value is `undefined` is not modelled. Spreading such a key would write `undefined` into the item.
- VaultRoutes.CreateItem: a failed INSERT that still consumes a SERIAL value is not modelled. The counter advances only on success.
- VaultRoutes.UpdateItem: body fields that are not strings (numbers, objects) are not modelled, and neither is a non-numeric `:id` reaching PostgreSQL. Such an id makes the query throw, and that case is covered by the 500 path.
- DbPool.WaitForDb: `retries` and `delayMs` are integers. A fractional `retries` would make `attempt === retries` never hold, so the loop would fall through without rethrowing. This is not modelled.
- DbPool.InitDbPool: the `pg.Pool` object is not modelled, only the configuration it receives. A second call builds a second pool; the model just returns the configuration again.
- PasswordGen.Resolve: `length` is an integer. A fractional length would emit `ceil(length)` characters; this is not modelled.
- The screens (`app/*.tsx`), network client code, auth routes and server wiring are not part of this model.

## Findings

| source | as written | input that shows it | evidently intended | confidence | as-written member | corrected member |
|---|---|---|---|---|---|---|
| services/crypto/encryption.ts:14,37 | `getEncryptionKey()` is called without `await`, so `derivedKey` is a Promise: always truthy, and it, not the stored code, is passed to `Hex.parse` | no key stored (after `resetApp`): `encrypt("x")` still returns a token instead of throwing, and its output is the same for every stored code | await the key, refuse a missing or empty one, and use the stored code as the key | high, not executed | Encryption.EncryptAsWritten, Encryption.UnawaitedKeyIsIgnored, Encryption.DecryptAsWritten, Encryption.UnawaitedDecryptKeyIsIgnored | Encryption.Encrypt, Encryption.Decrypt, Encryption.EncryptDecryptRoundTrip |

=== FILE: app_storage.dfy ===
/** The two key/value stores the app persists to: AsyncStorage (general,
    unencrypted) and SecureStore (Keychain/Keystore). Storage I/O is
    replaced by in-memory maps, and a storage call that throws is chosen by
    an explicit fault plan. JSON (de)serialisation is identity here: a vault
    list is kept as the list itself. */
module AppStorage {
  import Wrappers

  /** One credential record as services/storage/vault-storage.ts stores it. */
  datatype VaultItem = VaultItem(
    id: int,
    pseudo: string,
    url: string,
    password_encrypted: string,
    created_at: string)

  /** A value under an AsyncStorage key: a JSON-encoded item list, or any
      other text (which `JSON.parse` does not turn into an item list). */
  datatype Stored = Text(text: string) | ItemList(items: seq<VaultItem>)

  type AsyncStore = map<string, Stored>
  type SecureStore = map<string, string>

  /** Which storage call of one operation throws: none, or the call numbered
      `call` (counting from 0); the calls before it succeed. */
  datatype Faults = NoFault | FailAt(call: nat)

  predicate CallFails(faults: Faults, call: nat) {
    faults.FailAt? && faults.call == call
  }

  /** The state an operation leaves behind, with what it returned or threw. */
  datatype Step<T, E> = Step(result: Wrappers.Result<T, E>, store: AsyncStore)
}

=== FILE: auth_middleware.dfy ===
/** The bearer-token middleware of backend/src/middleware/auth.middleware.js.
    `jwt.verify(token, JWT_SECRET)` is an abstract partial function: it
    returns the token's claims, or None where the library throws. */
module AuthMiddleware {
  import opened Wrappers
  import opened JsStrings

  const BearerPrefix: string := "Bearer "
  const MissingToken: string := "Token manquant"
  const InvalidToken: string := "Token invalide ou expiré"

  /** The payload the auth routes sign: the user's id and e-mail. */
  datatype Claims = Claims(id: int, email: string)

  /** Either a 401 JSON error is sent, or `req.user` is set and `next()` is called once. */
  datatype AuthOutcome = Reject(status: int, error: string) | Next(user: Claims)

  /** `authMiddleware(req, res, next)` for the `Authorization` header `header`. */
  function Authenticate(header: Option<string>, verify: string -> Option<Claims>): (r: AuthOutcome)
    ensures r.Reject? ==> r.status == 401
    ensures header.None? || !StartsWith(header.value, BearerPrefix) ==> r == Reject(401, MissingToken)
    ensures r.Next? <==>
      header.Some? && StartsWith(header.value, BearerPrefix) && verify(header.value[|BearerPrefix|..]).Some?
    ensures r.Next? ==> r.user == verify(header.value[|BearerPrefix|..]).value
    ensures header.Some? && StartsWith(header.value, BearerPrefix) && verify(header.value[|BearerPrefix|..]).None?
            ==> r == Reject(401, InvalidToken)
  {
    if header.None? || header.value == "" || !StartsWith(header.value, BearerPrefix) then
      Reject(401, MissingToken)
    else
      var token := header.value[|BearerPrefix|..];
      match verify(token)
      case None => Reject(401, InvalidToken)
      case Some(payload) => Next(payload)
  }

  /** The token checked is exactly what follows "Bearer ": building the header
      from a token and parsing it again hands that token to `jwt.verify`. */
  lemma BearerRoundTrip(token: string, verify: string -> Option<Claims>)
    ensures Authenticate(Some(BearerPrefix + token), verify)
      == (match verify(token) case None => Reject(401, InvalidToken) case Some(c) => Next(c))
  {
    assert (BearerPrefix + token)[|BearerPrefix|..] == token;
  }

  /** The prefix test is case-sensitive: "bearer " is a missing token whatever follows. */
  lemma LowerCaseSchemeRejected(token: string, verify: string -> Option<Claims>)
    ensures Authenticate(Some("bearer " + token), verify) == Reject(401, MissingToken)
  {
    assert ("bearer " + token)[0] == 'b';
  }
}

=== FILE: db_pool.dfy ===
/** The PostgreSQL connection layer of backend/src/db/pool.js: choosing the
    pool configuration from the environment, running one query on a pooled
    client, and waiting for the database at start-up. The environment is a
    map, the database's answers are inputs, and sleeping is recorded as the
    list of delays the loop would wait. */
module DbPool {
  import opened Wrappers
  import opened JsNumbers
  import opened JsStrings

  // ---------------------------------------------------------------------------
  // initDbPool

  /** `process.env`. */
  type Env = map<string, string>

  function EnvVar(env: Env, name: string): Option<string> {
    if name in env then Some(env[name]) else None
  }

  const DefaultPort: int := 5432
  const MissingConfigExitCode: int := 1

  /** `ssl: false` or `ssl: { rejectUnauthorized: false }`. */
  datatype Ssl = NoSsl | SslWithoutVerification

  datatype PoolConfig =
    | UrlConfig(connectionString: string, ssl: Ssl)
    | HostConfig(host: string, port: JsNumber, user: string, password: Option<string>, database: string, ssl: Ssl)

  /** A pool built from a configuration, or the process exiting. */
  datatype InitOutcome = Ready(config: PoolConfig) | Exit(code: int)

  /** Only the exact text "true" in PGSSL turns TLS on. */
  function SslOf(env: Env): (ssl: Ssl)
    ensures ssl == SslWithoutVerification <==> "PGSSL" in env && env["PGSSL"] == "true"
  {
    if EnvVar(env, "PGSSL") == Some("true") then SslWithoutVerification else NoSsl
  }

  /** `PGPORT ? parseInt(PGPORT, 10) : 5432`. */
  function PortOf(env: Env): (port: JsNumber)
    ensures !Truthy(EnvVar(env, "PGPORT")) ==> port == Num(DefaultPort)
    ensures Truthy(EnvVar(env, "PGPORT")) ==>
      (port.NaN? <==> ParseInt10(env["PGPORT"]).None?)
      && (port.Num? ==> Some(port.n) == ParseInt10(env["PGPORT"]))
  {
    if Truthy(EnvVar(env, "PGPORT")) then
      match ParseInt10(env["PGPORT"])
      case None => NaN
      case Some(n) => Num(n)
    else Num(DefaultPort)
  }

  /** DATABASE_URL wins; otherwise PGHOST, PGUSER and PGDATABASE must all be
      non-empty, or the process exits with status 1. */
  function InitDbPool(env: Env): (r: InitOutcome)
    ensures Truthy(EnvVar(env, "DATABASE_URL")) ==> r == Ready(UrlConfig(env["DATABASE_URL"], SslOf(env)))
    ensures r.Exit? <==>
      && !Truthy(EnvVar(env, "DATABASE_URL"))
      && !(Truthy(EnvVar(env, "PGHOST")) && Truthy(EnvVar(env, "PGUSER")) && Truthy(EnvVar(env, "PGDATABASE")))
    ensures r.Exit? ==> r.code == MissingConfigExitCode
    ensures r.Ready? && r.config.HostConfig? ==>
      && !Truthy(EnvVar(env, "DATABASE_URL"))
      && Some(r.config.host) == EnvVar(env, "PGHOST") && r.config.host != ""
      && Some(r.config.user) == EnvVar(env, "PGUSER") && r.config.user != ""
      && Some(r.config.database) == EnvVar(env, "PGDATABASE") && r.config.database != ""
      && r.config.port == PortOf(env)
      && (r.config.password.Some? <==> Truthy(EnvVar(env, "PGPASSWORD")))
      && (r.config.password.Some? ==> r.config.password == EnvVar(env, "PGPASSWORD"))
    ensures r.Ready? ==> r.config.ssl == SslOf(env)
  {
    if Truthy(EnvVar(env, "DATABASE_URL")) then
      Ready(UrlConfig(env["DATABASE_URL"], SslOf(env)))
    else if Truthy(EnvVar(env, "PGHOST")) && Truthy(EnvVar(env, "PGUSER")) && Truthy(EnvVar(env, "PGDATABASE")) then
      Ready(HostConfig(
        env["PGHOST"],
        PortOf(env),
        env["PGUSER"],
        if Truthy(EnvVar(env, "PGPASSWORD")) then EnvVar(env, "PGPASSWORD") else None,
        env["PGDATABASE"],
        SslOf(env)))
    else Exit(MissingConfigExitCode)
  }

  /** A port written in decimal is the port the pool uses. */
  lemma PortRoundTrip(env: Env, port: nat)
    requires !Truthy(EnvVar(env, "DATABASE_URL"))
    requires Truthy(EnvVar(env, "PGHOST")) && Truthy(EnvVar(env, "PGUSER")) && Truthy(EnvVar(env, "PGDATABASE"))
    ensures InitDbPool(env["PGPORT" := NatToRadix(port, 10)]).config.port == Num(port)
  {
    var env' := env["PGPORT" := NatToRadix(port, 10)];
    assert EnvVar(env', "DATABASE_URL") == EnvVar(env, "DATABASE_URL");
    assert EnvVar(env', "PGHOST") == EnvVar(env, "PGHOST");
    assert EnvVar(env', "PGUSER") == EnvVar(env, "PGUSER");
    assert EnvVar(env', "PGDATABASE") == EnvVar(env, "PGDATABASE");
    ParseIntOfDecimal(port);
  }

  /** A PGPORT with no leading digits gives a NaN port rather than the default. */
  lemma NonNumericPortIsNaN(env: Env)
    requires !Truthy(EnvVar(env, "DATABASE_URL"))
    requires Truthy(EnvVar(env, "PGHOST")) && Truthy(EnvVar(env, "PGUSER")) && Truthy(EnvVar(env, "PGDATABASE"))
    requires EnvVar(env, "PGPORT") == Some("postgres")
    ensures InitDbPool(env).config.port == NaN
  {
    assert !IsJsWhiteSpace('p');
    ParseIntOfNonNumeric("postgres");
  }

  /** With DATABASE_URL set, the PG* variables are ignored. */
  lemma UrlIgnoresHostVariables(env: Env, name: string, value: string)
    requires Truthy(EnvVar(env, "DATABASE_URL"))
    requires name != "DATABASE_URL" && name != "PGSSL"
    ensures InitDbPool(env[name := value]) == InitDbPool(env)
  {
    assert EnvVar(env[name := value], "DATABASE_URL") == EnvVar(env, "DATABASE_URL");
    assert EnvVar(env[name := value], "PGSSL") == EnvVar(env, "PGSSL");
  }

  // ---------------------------------------------------------------------------
  // query

  /** The pool: whether it exists yet, and how many clients are checked out. */
  datatype Pool = Pool(config: PoolConfig, checkedOut: nat)

  datatype QueryError =
    | NoPool                 // `pool` is still undefined: calling `connect` on it throws
    | ConnectFailed(reason: string)
    | QueryFailed(reason: string)

  /** `query(text, params)`: check out a client, run the statement on it, and
      release the client whatever the statement did. `connect` and `exec`
      are what the driver answers. */
  function Query<T>(pool: Option<Pool>, connect: Result<(), string>, exec: Result<T, string>): (r: (Result<T, QueryError>, Option<Pool>))
    ensures pool.None? ==> r == (Err(NoPool), None)
    ensures pool.Some? && connect.Err? ==> r.0 == Err(ConnectFailed(connect.error))
    ensures pool.Some? && connect.Ok? ==>
      r.0 == match exec { case Ok(v) => Ok(v) case Err(e) => Err(QueryFailed(e)) }
  {
    match pool
    case None => (Err(NoPool), None)
    case Some(p) =>
      match connect
      case Err(e) => (Err(ConnectFailed(e)), pool)
      case Ok(_) =>
        var busy := Checkout(p);
        var result := match exec { case Ok(v) => Ok(v) case Err(e) => Err(QueryFailed(e)) };
        (result, Some(Release(busy)))
  }

  function Checkout(p: Pool): (q: Pool)
    ensures q.checkedOut == p.checkedOut + 1 && q.config == p.config
  {
    p.(checkedOut := p.checkedOut + 1)
  }

  function Release(p: Pool): (q: Pool)
    requires p.checkedOut > 0
    ensures q.checkedOut == p.checkedOut - 1 && q.config == p.config
  {
    p.(checkedOut := p.checkedOut - 1)
  }

  /** `finally { client.release() }`: on every path the pool ends with as many
      clients checked out as it started with. */
  lemma QueryReleasesClient<T>(pool: Option<Pool>, connect: Result<(), string>, exec: Result<T, string>)
    ensures Query(pool, connect, exec).1 == pool
  {
  }

  // ---------------------------------------------------------------------------
  // waitForDb

  const DefaultRetries: int := 10
  const DefaultDelayMs: int := 1000

  /** The waits after failed attempts 1..count: `delayMs * attempt` each. */
  function Backoff(delayMs: int, count: nat): (delays: seq<int>)
    ensures |delays| == count
    ensures forall i :: 0 <= i < count ==> delays[i] == delayMs * (i + 1)
  {
    seq(count, i requires 0 <= i < count => delayMs * (i + 1))
  }

  function Sum(s: seq<int>): int
    decreases |s|
  {
    if |s| == 0 then 0 else Sum(s[..|s| - 1]) + s[|s| - 1]
  }

  /** The total time spent sleeping grows quadratically with the attempts. */
  lemma {:induction false} BackoffTotal(delayMs: int, count: nat)
    ensures 2 * Sum(Backoff(delayMs, count)) == delayMs * count * (count + 1)
    decreases count
  {
    if count > 0 {
      assert Backoff(delayMs, count)[..count - 1] == Backoff(delayMs, count - 1);
      BackoffTotal(delayMs, count - 1);
    }
  }

  /** With the defaults, a database that never answers costs 45 seconds of
      sleep before the tenth error is thrown. */
  lemma DefaultBackoffTotal()
    ensures Sum(Backoff(DefaultDelayMs, DefaultRetries - 1)) == 45000
  {
    BackoffTotal(DefaultDelayMs, DefaultRetries - 1);
  }

  /** `waitForDb(retries = 10, delayMs = 1000)`: try `SELECT 1` up to
      `retries` times; return on the first success; after a failure either
      rethrow (on the last attempt) or sleep `delayMs * attempt`. `probe(k)` is
      the error attempt k raises, None when it succeeds. */
  method WaitForDb(retries: Option<int>, delayMs: Option<int>, probe: nat -> Option<string>)
    returns (result: Result<(), string>, attempts: nat, delays: seq<int>)
    ensures var n := retries.GetOr(DefaultRetries);
      && (n <= 0 ==> result == Ok(()) && attempts == 0)
      && (n > 0 ==> 1 <= attempts <= n)
      && (forall k :: 1 <= k < attempts ==> probe(k).Some?)
      && (result.Ok? && attempts > 0 ==> probe(attempts).None?)
      && (result.Err? ==> attempts == n && probe(n) == Some(result.error))
      && (result.Ok? <==> n <= 0 || exists k :: 1 <= k <= n && probe(k).None?)
      && delays == Backoff(delayMs.GetOr(DefaultDelayMs), if attempts == 0 then 0 else attempts - 1)
  {
    var n := retries.GetOr(DefaultRetries);
    var d := delayMs.GetOr(DefaultDelayMs);
    var attempt: nat := 1;
    attempts := 0;
    delays := [];
    while attempt <= n
      invariant 1 <= attempt && (n > 0 ==> attempt <= n) && (n <= 0 ==> attempt == 1)
      invariant attempts == attempt - 1
      invariant forall k :: 1 <= k < attempt ==> probe(k).Some?
      invariant delays == Backoff(d, attempt - 1)
      decreases n - attempt
    {
      attempts := attempt;
      match probe(attempt)
      case None =>
        return Ok(()), attempts, Backoff(d, attempt - 1);
      case Some(err) =>
        if attempt == n {
          return Err(err), attempts, delays;
        }
        delays := delays + [d * attempt];
        attempt := attempt + 1;
    }
    result := Ok(());
  }

  /** A database that answers on attempt k is waited for exactly k - 1 times. */
  method WaitForDbAnswering(k: nat) returns (result: Result<(), string>, attempts: nat, delays: seq<int>)
    requires 1 <= k <= DefaultRetries
    ensures result.Ok? && attempts == k && delays == Backoff(DefaultDelayMs, k - 1)
  {
    var probe: nat -> Option<string> := j => if j < k then Some("ECONNREFUSED") else None;
    var retries: Option<int> := None;
    assert probe(k).None?;
    result, attempts, delays := WaitForDb(retries, None, probe);
  }
}

=== FILE: encryption.dfy ===
/** The ciphertext token format of services/crypto/encryption.ts: a random
    16-byte IV printed as 32 lower-case hex digits, then ':', then the
    cipher's output. AES-CBC/PKCS7 itself is an abstract pair of functions. */
module Encryption {
  import opened Wrappers
  import opened JsNumbers
  import opened JsStrings

  type byte = b: int | 0 <= b < 256

  const IvLength: nat := 16
  const Separator: char := ':'

  // ---------------------------------------------------------------------------
  // generateIV

  /** `s.padStart(width, '0')`. */
  function PadStart(s: string, width: nat): (r: string)
    ensures |r| == if |s| >= width then |s| else width
    ensures r[|r| - |s|..] == s
  {
    if |s| >= width then s else seq(width - |s|, _ => '0') + s
  }

  /** `byte.toString(16).padStart(2, '0')`. */
  function ByteToHex(b: byte): string {
    PadStart(IntToRadix(b, 16), 2)
  }

  /** The two digits are the high and the low nibble, lower-case. */
  lemma ByteToHexDigits(b: byte)
    ensures ByteToHex(b) == [DigitChar(b / 16), DigitChar(b % 16)]
  {
    if b >= 16 {
      assert NatToRadix(b / 16, 16) == [DigitChar(b / 16)];
    }
  }

  /** `bytes.map(toHex).join('')`. */
  function HexEncode(bytes: seq<byte>): string
    decreases |bytes|
  {
    if |bytes| == 0 then "" else ByteToHex(bytes[0]) + HexEncode(bytes[1..])
  }

  /** Reading hex back, two digits per byte: the inverse of HexEncode on the
      even-length lowercase hex that GenerateIV emits. */
  function HexDecode(s: string): Option<seq<byte>>
    decreases |s|
  {
    if |s| == 0 then Some([])
    else if |s| == 1 then None
    else
      var hi, lo := DigitValue(s[0]), DigitValue(s[1]);
      if hi.None? || lo.None? || hi.value >= 16 || lo.value >= 16 then None
      else
        match HexDecode(s[2..])
        case None => None
        case Some(rest) => Some([hi.value * 16 + lo.value] + rest)
  }

  predicate IsLowerHex(c: char) {
    '0' <= c <= '9' || 'a' <= c <= 'f'
  }

  lemma DigitCharIsLowerHex(d: nat)
    requires d < 16
    ensures IsLowerHex(DigitChar(d))
  {
  }

  predicate AllLowerHex(s: string) {
    forall i :: 0 <= i < |s| ==> IsLowerHex(s[i])
  }

  /** Hex encoding writes two lower-case digits per byte. */
  lemma {:induction false} HexEncodeShape(bytes: seq<byte>)
    ensures |HexEncode(bytes)| == 2 * |bytes|
    ensures AllLowerHex(HexEncode(bytes))
    decreases |bytes|
  {
    if |bytes| > 0 {
      var b := bytes[0];
      HexEncodeShape(bytes[1..]);
      var h := ByteToHex(b);
      ByteHexIsLowerHex(b);
      var t := HexEncode(bytes[1..]);
      assert HexEncode(bytes) == h + t;
      AppendLowerHex(h, t);
    }
  }

  lemma ByteHexIsLowerHex(b: byte)
    ensures |ByteToHex(b)| == 2 && AllLowerHex(ByteToHex(b))
  {
    ByteToHexDigits(b);
    DigitCharIsLowerHex(b / 16);
    DigitCharIsLowerHex(b % 16);
  }

  lemma AppendLowerHex(a: string, b: string)
    requires AllLowerHex(a) && AllLowerHex(b)
    ensures AllLowerHex(a + b)
  {
    forall i | 0 <= i < |a + b| ensures IsLowerHex((a + b)[i]) {
      if i >= |a| {
        assert (a + b)[i] == b[i - |a|];
      }
    }
  }

  /** Two hex digits in front of decodable text decode to their byte in front. */
  lemma HexDecodeCons(b: byte, t: string, rest: seq<byte>)
    requires HexDecode(t) == Some(rest)
    ensures HexDecode([DigitChar(b / 16), DigitChar(b % 16)] + t) == Some([b] + rest)
  {
    var hi, lo := b / 16, b % 16;
    DigitValueOfDigitChar(hi);
    DigitValueOfDigitChar(lo);
    var s := [DigitChar(hi), DigitChar(lo)] + t;
    assert s[0] == DigitChar(hi) && s[1] == DigitChar(lo);
    assert s[2..] == t;
  }

  /** Hex encoding decodes back to the bytes. */
  lemma {:induction false} HexRoundTrip(bytes: seq<byte>)
    ensures HexDecode(HexEncode(bytes)) == Some(bytes)
    decreases |bytes|
  {
    if |bytes| > 0 {
      var b := bytes[0];
      HexRoundTrip(bytes[1..]);
      ByteToHexDigits(b);
      HexDecodeCons(b, HexEncode(bytes[1..]), bytes[1..]);
      assert [b] + bytes[1..] == bytes;
    }
  }

  /** `generateIV()` given the 16 random bytes `Crypto.getRandomBytesAsync(16)` returns. */
  function GenerateIV(randomBytes: seq<byte>): (iv: string)
    requires |randomBytes| == IvLength
    ensures |iv| == 2 * IvLength
    ensures AllLowerHex(iv)
    ensures HexDecode(iv) == Some(randomBytes)
  {
    HexEncodeShape(randomBytes);
    HexRoundTrip(randomBytes);
    HexEncode(randomBytes)
  }

  // ---------------------------------------------------------------------------
  // The cipher, kept abstract

  /** The key argument handed to `CryptoJS.enc.Hex.parse`: the stored code, or
      the pending Promise an un-awaited `getEncryptionKey()` evaluates to. */
  datatype KeyInput = KeyText(text: string) | PendingPromise

  /** AES-CBC with PKCS7 padding under a key and a hex IV: `encrypt` yields the
      base64 ciphertext, `decrypt` the UTF-8 text ("" when decryption fails). */
  datatype Cipher = Cipher(
    encrypt: (KeyInput, string, string) -> string,
    decrypt: (KeyInput, string, string) -> string)

  /** Decryption undoes encryption under the same key and IV. */
  ghost predicate Inverse(c: Cipher) {
    forall k, iv, p :: c.decrypt(k, iv, c.encrypt(k, iv, p)) == p
  }

  /** The ciphertext is base64: never empty (at least one block) and free of ':'. */
  ghost predicate Base64Output(c: Cipher) {
    forall k, iv, p :: c.encrypt(k, iv, p) != "" && Separator !in c.encrypt(k, iv, p)
  }

  datatype CryptoError = NoKey | MalformedToken | DecryptionFailed

  // ---------------------------------------------------------------------------
  // Token format

  /** `iv + ":" + ct`. */
  function MakeToken(iv: string, ct: string): string {
    iv + [Separator] + ct
  }

  /** `const [iv, ct] = token.split(':')` and the `!iv || !ct` check: the first
      two pieces, both non-empty; further pieces are ignored. */
  function ParseToken(token: string): (r: Result<(string, string), CryptoError>)
    ensures r.Err? ==> r.error == MalformedToken
    ensures r.Ok? ==>
      var (iv, ct) := r.value;
      && iv != "" && ct != "" && Separator !in iv && Separator !in ct
      && (token == MakeToken(iv, ct) || StartsWith(token, MakeToken(iv, ct) + [Separator]))
  {
    var parts := Split(token, Separator);
    if parts[0] == "" || |parts| < 2 || parts[1] == "" then Err(MalformedToken)
    else
      FirstTwoPieces(token);
      Ok((parts[0], parts[1]))
  }

  /** The text is its first two pieces, then either nothing or a separator and the rest. */
  lemma FirstTwoPieces(token: string)
    requires |Split(token, Separator)| >= 2
    ensures var parts := Split(token, Separator);
      token == MakeToken(parts[0], parts[1]) || StartsWith(token, MakeToken(parts[0], parts[1]) + [Separator])
  {
    var parts := Split(token, Separator);
    JoinSplit(token, Separator);
    if |parts| > 2 {
      assert parts[1..][1..] == parts[2..];
      assert token == MakeToken(parts[0], parts[1]) + [Separator] + Join(parts[2..], Separator);
    }
  }

  /** A token built from two non-empty, separator-free halves parses back into them. */
  lemma TokenRoundTrip(iv: string, ct: string)
    requires iv != "" && ct != ""
    requires Separator !in iv && Separator !in ct
    ensures ParseToken(MakeToken(iv, ct)) == Ok((iv, ct))
  {
    SplitJoin([iv, ct], Separator);
    assert Join([iv, ct], Separator) == MakeToken(iv, ct);
  }

  /** Pieces after the second are ignored: only the second becomes the ciphertext. */
  lemma ExtraSegmentsIgnored(iv: string, ct: string, rest: string)
    requires iv != "" && ct != ""
    requires Separator !in iv && Separator !in ct
    ensures ParseToken(MakeToken(iv, ct) + [Separator] + rest) == Ok((iv, ct))
  {
    var t := MakeToken(iv, ct) + [Separator] + rest;
    assert t == iv + [Separator] + (ct + [Separator] + rest);
    SplitAtFirst(iv, Separator, ct + [Separator] + rest);
    SplitAtFirst(ct, Separator, rest);
  }

  /** A token with no separator at all is malformed, e.g. "not-a-valid-token". */
  lemma NoSeparatorIsMalformed(token: string)
    requires Separator !in token
    ensures ParseToken(token) == Err(MalformedToken)
  {
    SplitNoSeparator(token, Separator);
  }

  lemma NotAValidTokenRejected()
    ensures ParseToken("not-a-valid-token") == Err(MalformedToken)
  {
    NoSeparatorIsMalformed("not-a-valid-token");
  }

  /** An empty first or second piece is malformed too. */
  lemma EmptyHalfIsMalformed(iv: string, ct: string)
    requires Separator !in iv && Separator !in ct
    requires iv == "" || ct == ""
    ensures ParseToken(MakeToken(iv, ct)) == Err(MalformedToken)
  {
    SplitJoin([iv, ct], Separator);
    assert Join([iv, ct], Separator) == MakeToken(iv, ct);
  }

  // ---------------------------------------------------------------------------
  // encrypt and decrypt, with the key awaited

  /** `encrypt(plaintext)` with the stored key awaited; `randomBytes` are the IV bytes. */
  function Encrypt(key: Option<string>, cipher: Cipher, randomBytes: seq<byte>, plaintext: string)
    : (r: Result<string, CryptoError>)
    requires |randomBytes| == IvLength
    ensures r.Err? <==> !Truthy(key)
    ensures r.Err? ==> r.error == NoKey
    ensures r.Ok? ==>
      && |r.value| > 2 * IvLength
      && r.value[2 * IvLength] == Separator
      && HexDecode(r.value[..2 * IvLength]) == Some(randomBytes)
      && Separator !in r.value[..2 * IvLength]
      && r.value[2 * IvLength + 1..] == cipher.encrypt(KeyText(key.value), r.value[..2 * IvLength], plaintext)
  {
    if !Truthy(key) then Err(NoKey)
    else
      var iv := GenerateIV(randomBytes);
      var ct := cipher.encrypt(KeyText(key.value), iv, plaintext);
      IvPrefix(iv, ct);
      Ok(MakeToken(iv, ct))
  }

  /** In a token built from a hex IV, the IV is the first 32 characters and the separator follows. */
  lemma IvPrefix(iv: string, ct: string)
    requires |iv| == 2 * IvLength
    requires AllLowerHex(iv)
    ensures var token := MakeToken(iv, ct);
      |token| > 2 * IvLength && token[2 * IvLength] == Separator
      && token[..2 * IvLength] == iv && Separator !in iv
      && token[2 * IvLength + 1..] == ct
  {
    assert MakeToken(iv, ct)[..2 * IvLength] == iv;
    assert forall i :: 0 <= i < |iv| ==> iv[i] != Separator;
  }

  /** `decrypt(token)` with the stored key awaited. */
  function Decrypt(key: Option<string>, cipher: Cipher, token: string): (r: Result<string, CryptoError>)
    ensures !Truthy(key) ==> r == Err(NoKey)
    ensures Truthy(key) && ParseToken(token).Err? ==> r == Err(MalformedToken)
    ensures r.Ok? ==> r.value != ""
    ensures r.Ok? ==>
      && Truthy(key) && ParseToken(token).Ok?
      && r.value == cipher.decrypt(KeyText(key.value), ParseToken(token).value.0, ParseToken(token).value.1)
    ensures r == Err(DecryptionFailed) <==>
      Truthy(key) && ParseToken(token).Ok?
      && cipher.decrypt(KeyText(key.value), ParseToken(token).value.0, ParseToken(token).value.1) == ""
  {
    if !Truthy(key) then Err(NoKey)
    else
      match ParseToken(token)
      case Err(e) => Err(e)
      case Ok((iv, ct)) =>
        var result := cipher.decrypt(KeyText(key.value), iv, ct);
        if result == "" then Err(DecryptionFailed) else Ok(result)
  }

  /** With an invertible cipher, `decrypt(encrypt(p))` gives `p` back exactly
      when `p` is non-empty: the empty plaintext is refused as a failed decryption. */
  lemma EncryptDecryptRoundTrip(key: Option<string>, cipher: Cipher, randomBytes: seq<byte>, p: string)
    requires |randomBytes| == IvLength
    requires Truthy(key)
    requires Inverse(cipher) && Base64Output(cipher)
    ensures Encrypt(key, cipher, randomBytes, p).Ok?
    ensures Decrypt(key, cipher, Encrypt(key, cipher, randomBytes, p).value) == Ok(p) <==> p != ""
    ensures p == "" ==> Decrypt(key, cipher, Encrypt(key, cipher, randomBytes, p).value) == Err(DecryptionFailed)
  {
    var k := KeyText(key.value);
    var iv := GenerateIV(randomBytes);
    var ct := cipher.encrypt(k, iv, p);
    IvPrefix(iv, ct);
    TokenRoundTrip(iv, ct);
    assert cipher.decrypt(k, iv, ct) == p;
  }

  // ---------------------------------------------------------------------------
  // encrypt and decrypt as written: `getEncryptionKey()` is not awaited

  /** `encrypt` as written: `derivedKey` is the pending Promise, which is truthy,
      so the missing-key check never fires and the Promise itself is the key. */
  function EncryptAsWritten(stored: Option<string>, cipher: Cipher, randomBytes: seq<byte>, plaintext: string)
    : (r: Result<string, CryptoError>)
    requires |randomBytes| == IvLength
    ensures r.Ok?
  {
    var iv := GenerateIV(randomBytes);
    Ok(MakeToken(iv, cipher.encrypt(PendingPromise, iv, plaintext)))
  }

  /** `decrypt` as written, with the same un-awaited key: the stored code is
      never consulted, and the Promise is the key the cipher receives. */
  function DecryptAsWritten(stored: Option<string>, cipher: Cipher, token: string): (r: Result<string, CryptoError>)
    ensures r != Err(NoKey)
    ensures ParseToken(token).Err? ==> r == Err(MalformedToken)
    ensures r.Ok? ==>
      && ParseToken(token).Ok? && r.value != ""
      && r.value == cipher.decrypt(PendingPromise, ParseToken(token).value.0, ParseToken(token).value.1)
    ensures r == Err(DecryptionFailed) <==>
      ParseToken(token).Ok? && cipher.decrypt(PendingPromise, ParseToken(token).value.0, ParseToken(token).value.1) == ""
  {
    match ParseToken(token)
    case Err(e) => Err(e)
    case Ok((iv, ct)) =>
      var result := cipher.decrypt(PendingPromise, iv, ct);
      if result == "" then Err(DecryptionFailed) else Ok(result)
  }

  /** As written, decryption never reports a missing key, where the awaited
      version does; and its result does not depend on the stored code. */
  lemma UnawaitedDecryptKeyIsIgnored(cipher: Cipher, token: string, stored1: Option<string>, stored2: Option<string>)
    ensures DecryptAsWritten(None, cipher, token) != Err(NoKey)
    ensures Decrypt(None, cipher, token) == Err(NoKey)
    ensures DecryptAsWritten(stored1, cipher, token) == DecryptAsWritten(stored2, cipher, token)
  {
  }

  /** As written, encryption succeeds with no key stored, where the awaited
      version refuses; and the output does not depend on the stored code. */
  lemma UnawaitedKeyIsIgnored(cipher: Cipher, randomBytes: seq<byte>, plaintext: string, code1: string, code2: string)
    requires |randomBytes| == IvLength
    ensures EncryptAsWritten(None, cipher, randomBytes, plaintext).Ok?
    ensures Encrypt(None, cipher, randomBytes, plaintext) == Err(NoKey)
    ensures EncryptAsWritten(Some(code1), cipher, randomBytes, plaintext)
         == EncryptAsWritten(Some(code2), cipher, randomBytes, plaintext)
  {
  }
}

=== FILE: js_numbers.dfy ===
/** The slices of JavaScript number semantics the core relies on: the
    32-bit signed wrap-around of bitwise operators, `Number.prototype.toString(radix)`
    on integers, and `parseInt(text, 10)`. */
module JsNumbers {
  import opened Wrappers

  const TwoTo32: int := 0x1_0000_0000
  const Int32Min: int := -0x8000_0000
  const Int32Max: int := 0x7FFF_FFFF

  predicate IsInt32(x: int) {
    Int32Min <= x <= Int32Max
  }

  /** ECMAScript ToInt32: the one signed 32-bit value congruent to `x` modulo 2^32. */
  function ToInt32(x: int): (r: int)
    ensures IsInt32(r)
    ensures (x - r) % TwoTo32 == 0
  {
    var m := x % TwoTo32;
    if m > Int32Max then m - TwoTo32 else m
  }

  /** ToInt32 is characterised by its two postconditions: no other 32-bit value is congruent. */
  lemma ToInt32Unique(x: int, r: int)
    requires IsInt32(r)
    requires (x - r) % TwoTo32 == 0
    ensures r == ToInt32(x)
  {
    var t := ToInt32(x);
    assert (t - r) % TwoTo32 == 0 by {
      assert t - r == (x - r) - (x - t);
    }
    assert -TwoTo32 < t - r < TwoTo32;
  }

  /** A value already in range is left alone. */
  lemma ToInt32OfInt32(x: int)
    requires IsInt32(x)
    ensures ToInt32(x) == x
  {
    ToInt32Unique(x, x);
  }

  // ---------------------------------------------------------------------------
  // Radix printing and parsing of integers

  predicate ValidRadix(radix: nat) {
    2 <= radix <= 36
  }

  /** The digit character for `d`, lower-case letters above 9, as `toString(radix)` prints. */
  function DigitChar(d: nat): (c: char)
    requires d < 36
  {
    if d < 10 then ('0' as int + d) as char else ('a' as int + d - 10) as char
  }

  /** The value of a digit character (either case), or None for any other character. */
  function DigitValue(c: char): (r: Option<nat>)
    ensures r.Some? ==> r.value < 36
  {
    if '0' <= c <= '9' then Some(c as int - '0' as int)
    else if 'a' <= c <= 'z' then Some(c as int - 'a' as int + 10)
    else if 'A' <= c <= 'Z' then Some(c as int - 'A' as int + 10)
    else None
  }

  lemma DigitValueOfDigitChar(d: nat)
    requires d < 36
    ensures DigitValue(DigitChar(d)) == Some(d)
  {
  }

  /** Euclidean division facts for a positive divisor, stated once. */
  lemma DivMod(n: nat, radix: nat)
    requires ValidRadix(radix) && n >= radix
    ensures 0 < n / radix < n && n % radix < radix
    ensures n == (n / radix) * radix + n % radix
  {
  }

  /** Every character of `s` is a digit below `radix`. */
  predicate AllDigits(s: string, radix: nat) {
    forall i :: 0 <= i < |s| ==> DigitValue(s[i]).Some? && DigitValue(s[i]).value < radix
  }

  /** The digits of `n` in `radix`, most significant first, without leading zeros. */
  function NatToRadix(n: nat, radix: nat): (s: string)
    requires ValidRadix(radix)
    ensures |s| >= 1
    ensures AllDigits(s, radix)
    decreases n
  {
    if n < radix then
      DigitValueOfDigitChar(n);
      [DigitChar(n)]
    else
      DivMod(n, radix);
      var d := n % radix;
      DigitValueOfDigitChar(d);
      NatToRadix(n / radix, radix) + [DigitChar(d)]
  }

  /** `Number.prototype.toString(radix)` on an integer: a leading '-' for negatives. */
  function IntToRadix(i: int, radix: nat): (s: string)
    requires ValidRadix(radix)
    ensures |s| >= 1
    ensures (s[0] == '-') <==> i < 0
  {
    if i < 0 then "-" + NatToRadix(-i, radix) else NatToRadix(i, radix)
  }

  /** The value of a non-empty string of digits in `radix`; None if empty or any character is no such digit. */
  function ParseRadixNat(s: string, radix: nat): (r: Option<nat>)
    requires ValidRadix(radix)
    decreases |s|
  {
    if |s| == 0 then None
    else
      var d := DigitValue(s[|s| - 1]);
      if d.None? || d.value >= radix then None
      else if |s| == 1 then Some(d.value)
      else
        match ParseRadixNat(s[..|s| - 1], radix)
        case None => None
        case Some(p) => Some(p * radix + d.value)
  }

  /** Inverse of IntToRadix. */
  function ParseRadixInt(s: string, radix: nat): (r: Option<int>)
    requires ValidRadix(radix)
  {
    if |s| > 0 && s[0] == '-' then
      match ParseRadixNat(s[1..], radix)
      case None => None
      case Some(n) => if n == 0 then None else Some(0 - n)
    else
      match ParseRadixNat(s, radix)
      case None => None
      case Some(n) => Some(n)
  }

  lemma {:induction false} ParseNatToRadix(n: nat, radix: nat)
    requires ValidRadix(radix)
    ensures ParseRadixNat(NatToRadix(n, radix), radix) == Some(n)
    decreases n
  {
    var s := NatToRadix(n, radix);
    if n < radix {
      DigitValueOfDigitChar(n);
    } else {
      DivMod(n, radix);
      var q, d := n / radix, n % radix;
      ParseNatToRadix(q, radix);
      DigitValueOfDigitChar(d);
      assert s == NatToRadix(q, radix) + [DigitChar(d)];
      assert s[..|s| - 1] == NatToRadix(q, radix);
      assert s[|s| - 1] == DigitChar(d);
    }
  }

  /** Digits without a sign read back as the natural number they print. */
  lemma ParseUnsigned(s: string, radix: nat, n: nat)
    requires ValidRadix(radix) && |s| > 0 && AllDigits(s, radix)
    requires ParseRadixNat(s, radix) == Some(n)
    ensures ParseRadixInt(s, radix) == Some(n)
  {
    assert DigitValue(s[0]).Some?;
  }

  /** A '-' before the digits of a positive number reads back as its negation. */
  lemma ParseSigned(s: string, radix: nat, n: nat)
    requires ValidRadix(radix) && n > 0
    requires ParseRadixNat(s, radix) == Some(n)
    ensures ParseRadixInt("-" + s, radix) == Some(-(n as int))
  {
    assert ("-" + s)[1..] == s;
  }

  /** Printing an integer in any radix can be undone. */
  lemma RadixRoundTrip(i: int, radix: nat)
    requires ValidRadix(radix)
    ensures ParseRadixInt(IntToRadix(i, radix), radix) == Some(i)
  {
    if i < 0 {
      ParseNatToRadix(-i, radix);
      ParseSigned(NatToRadix(-i, radix), radix, -i);
    } else {
      ParseNatToRadix(i, radix);
      ParseUnsigned(NatToRadix(i, radix), radix, i);
    }
  }

  /** Consequently two integers print alike exactly when they are equal. */
  lemma RadixInjective(a: int, b: int, radix: nat)
    requires ValidRadix(radix)
    ensures IntToRadix(a, radix) == IntToRadix(b, radix) <==> a == b
  {
    if IntToRadix(a, radix) == IntToRadix(b, radix) {
      RadixRoundTrip(a, radix);
      RadixRoundTrip(b, radix);
    }
  }

  // ---------------------------------------------------------------------------
  // parseInt(text, 10)

  /** The characters ECMAScript's StrWhiteSpaceChar admits (white space and line terminators). */
  predicate IsJsWhiteSpace(c: char) {
    var x := c as int;
    (0x09 <= x <= 0x0D) || x == 0x20 || x == 0xA0 || x == 0x1680
    || (0x2000 <= x <= 0x200A) || x == 0x2028 || x == 0x2029 || x == 0x202F
    || x == 0x205F || x == 0x3000 || x == 0xFEFF
  }

  function TrimStart(s: string): (t: string)
    ensures |t| <= |s| && t == s[|s| - |t|..]
    ensures |t| > 0 ==> !IsJsWhiteSpace(t[0])
    decreases |s|
  {
    if |s| > 0 && IsJsWhiteSpace(s[0]) then TrimStart(s[1..]) else s
  }

  predicate IsDecimalDigit(c: char) {
    '0' <= c <= '9'
  }

  /** The longest prefix of `s` made of decimal digits. */
  function DecimalPrefix(s: string): (p: string)
    ensures p <= s
    ensures forall i :: 0 <= i < |p| ==> IsDecimalDigit(p[i])
    ensures |p| < |s| ==> !IsDecimalDigit(s[|p|])
    decreases |s|
  {
    if |s| > 0 && IsDecimalDigit(s[0]) then [s[0]] + DecimalPrefix(s[1..]) else []
  }

  /** An integral JavaScript number, or NaN. */
  datatype JsNumber = Num(n: int) | NaN

  /** `parseInt(s, 10)`: None stands for NaN. */
  function ParseInt10(s: string): (r: Option<int>)
  {
    var t := TrimStart(s);
    var negative := |t| > 0 && t[0] == '-';
    var body := if |t| > 0 && (t[0] == '-' || t[0] == '+') then t[1..] else t;
    match ParseRadixNat(DecimalPrefix(body), 10)
    case None => None
    case Some(n) => Some(if negative then 0 - n else n)
  }

  /** Text that starts with neither white space, a sign nor a digit parses to NaN. */
  lemma ParseIntOfNonNumeric(s: string)
    requires |s| > 0 && !IsJsWhiteSpace(s[0]) && !IsDecimalDigit(s[0]) && s[0] != '-' && s[0] != '+'
    ensures ParseInt10(s) == None
  {
    assert TrimStart(s) == s;
    assert DecimalPrefix(s) == [];
  }

  lemma {:induction false} DecimalPrefixOfDigits(s: string)
    requires forall i :: 0 <= i < |s| ==> IsDecimalDigit(s[i])
    ensures DecimalPrefix(s) == s
    decreases |s|
  {
    if |s| > 0 {
      DecimalPrefixOfDigits(s[1..]);
      assert [s[0]] + s[1..] == s;
    }
  }

  /** Digits below ten are decimal digits and hence no white space or sign. */
  lemma DecimalDigitsOf(s: string)
    requires AllDigits(s, 10)
    ensures forall i :: 0 <= i < |s| ==> IsDecimalDigit(s[i])
  {
    forall i | 0 <= i < |s| ensures IsDecimalDigit(s[i]) {
      assert DigitValue(s[i]).Some? && DigitValue(s[i]).value < 10;
    }
  }

  /** On unsigned digits alone, parseInt is the plain decimal value. */
  lemma ParseInt10OfDigits(s: string)
    requires |s| > 0 && forall i :: 0 <= i < |s| ==> IsDecimalDigit(s[i])
    ensures ParseRadixNat(s, 10).None? ==> ParseInt10(s).None?
    ensures ParseRadixNat(s, 10).Some? ==> ParseInt10(s) == Some(ParseRadixNat(s, 10).value)
  {
    assert IsDecimalDigit(s[0]);
    assert !IsJsWhiteSpace(s[0]) && s[0] != '-' && s[0] != '+';
    assert TrimStart(s) == s;
    DecimalPrefixOfDigits(s);
  }

  /** `parseInt(n.toString(), 10)` gives `n` back for every natural number. */
  lemma ParseIntOfDecimal(n: nat)
    ensures ParseInt10(NatToRadix(n, 10)) == Some(n)
  {
    var s := NatToRadix(n, 10);
    DecimalDigitsOf(s);
    ParseInt10OfDigits(s);
    ParseNatToRadix(n, 10);
  }
}

=== FILE: js_strings.dfy ===
/** JavaScript string facts the core relies on: strings are sequences of
    UTF-16 code units (`length`, `charCodeAt`), `startsWith`, `substring`
    and `split` on a one-character separator. Dafny strings hold Unicode
    scalar values, so code units are computed explicitly. */
module JsStrings {
  import opened Wrappers

  /** A UTF-16 code unit. */
  type CodeUnit = u: int | 0 <= u < 0x1_0000

  predicate IsBmp(c: char) {
    (c as int) < 0x1_0000
  }

  /** The code units encoding one character: itself, or a surrogate pair above the BMP. */
  function CharUnits(c: char): (us: seq<CodeUnit>)
    ensures |us| == (if IsBmp(c) then 1 else 2)
    ensures IsBmp(c) ==> us[0] == c as int
    ensures !IsBmp(c) ==> 0xD800 <= us[0] < 0xDC00 <= us[1] < 0xE000
  {
    var cp := c as int;
    if cp < 0x1_0000 then [cp]
    else [0xD800 + (cp - 0x1_0000) / 0x400, 0xDC00 + (cp - 0x1_0000) % 0x400]
  }

  /** The UTF-16 code units of `s`: what `charCodeAt(0 .. length - 1)` returns. */
  function CodeUnits(s: string): (us: seq<CodeUnit>)
    ensures |s| <= |us| <= 2 * |s|
    decreases |s|
  {
    if |s| == 0 then [] else CharUnits(s[0]) + CodeUnits(s[1..])
  }

  /** JavaScript's `s.length`. */
  function JsLength(s: string): nat {
    |CodeUnits(s)|
  }

  /** Decoding UTF-16 back to characters; None for a lone surrogate. */
  function DecodeUtf16(us: seq<CodeUnit>): (r: Option<string>)
    decreases |us|
  {
    if |us| == 0 then Some([])
    else if us[0] < 0xD800 || us[0] >= 0xE000 then
      match DecodeUtf16(us[1..])
      case None => None
      case Some(rest) => Some([us[0] as char] + rest)
    else if us[0] < 0xDC00 && |us| >= 2 && 0xDC00 <= us[1] < 0xE000 then
      var cp: int := 0x1_0000 + (us[0] as int - 0xD800) * 0x400 + (us[1] - 0xDC00);
      match DecodeUtf16(us[2..])
      case None => None
      case Some(rest) => Some([cp as char] + rest)
    else None
  }

  /** A surrogate pair recombines to the character it encodes. */
  lemma SurrogatePairValue(c: char)
    requires !IsBmp(c)
    ensures var us := CharUnits(c);
      0x1_0000 + (us[0] as int - 0xD800) * 0x400 + (us[1] as int - 0xDC00) == c as int
  {
    var cp := c as int - 0x1_0000;
    assert cp == (cp / 0x400) * 0x400 + cp % 0x400;
  }

  /** Decoding consumes one character's units and then decodes the rest. */
  lemma DecodeCharUnits(c: char, rest: seq<CodeUnit>, tail: string)
    requires DecodeUtf16(rest) == Some(tail)
    ensures DecodeUtf16(CharUnits(c) + rest) == Some([c] + tail)
  {
    var us := CharUnits(c) + rest;
    if IsBmp(c) {
      assert us[1..] == rest;
    } else {
      assert us[2..] == rest;
      SurrogatePairValue(c);
    }
  }

  /** The code-unit encoding loses nothing: two strings with the same code units are equal. */
  lemma {:induction false} Utf16RoundTrip(s: string)
    ensures DecodeUtf16(CodeUnits(s)) == Some(s)
    decreases |s|
  {
    if |s| > 0 {
      Utf16RoundTrip(s[1..]);
      DecodeCharUnits(s[0], CodeUnits(s[1..]), s[1..]);
      assert [s[0]] + s[1..] == s;
    }
  }

  /** For text made of BMP characters (all the ASCII the core handles), `length` counts characters. */
  lemma {:induction false} JsLengthOfBmp(s: string)
    requires forall i :: 0 <= i < |s| ==> IsBmp(s[i])
    ensures JsLength(s) == |s|
    ensures CodeUnits(s) == seq(|s|, i requires 0 <= i < |s| => s[i] as int)
    decreases |s|
  {
    if |s| > 0 {
      JsLengthOfBmp(s[1..]);
    }
  }

  // ---------------------------------------------------------------------------

  /** `s.startsWith(prefix)`: an exact, case-sensitive prefix test. */
  predicate StartsWith(s: string, prefix: string) {
    |prefix| <= |s| && s[..|prefix|] == prefix
  }

  /** The pieces `s.split(sep)` returns for a one-character separator. */
  function Split(s: string, sep: char): (parts: seq<string>)
    ensures |parts| >= 1
    ensures forall i :: 0 <= i < |parts| ==> sep !in parts[i]
    decreases |s|
  {
    if |s| == 0 then [""]
    else
      var rest := Split(s[1..], sep);
      if s[0] == sep then [""] + rest
      else [[s[0]] + rest[0]] + rest[1..]
  }

  /** `parts.join(sep)`. */
  function Join(parts: seq<string>, sep: char): string
    requires |parts| >= 1
    decreases |parts|
  {
    if |parts| == 1 then parts[0] else parts[0] + [sep] + Join(parts[1..], sep)
  }

  /** Splitting then joining on the same separator gives the text back. */
  lemma {:induction false} JoinSplit(s: string, sep: char)
    ensures Join(Split(s, sep), sep) == s
    decreases |s|
  {
    if |s| > 0 {
      JoinSplit(s[1..], sep);
      var rest := Split(s[1..], sep);
      if s[0] != sep {
        var parts := Split(s, sep);
        if |rest| == 1 {
          assert Join(parts, sep) == [s[0]] + rest[0];
        } else {
          assert parts[1..] == rest[1..];
          assert Join(parts, sep) == ([s[0]] + rest[0]) + [sep] + Join(rest[1..], sep);
          assert Join(rest, sep) == rest[0] + [sep] + Join(rest[1..], sep);
        }
      } else {
        assert Split(s, sep)[1..] == rest;
      }
      assert [s[0]] + s[1..] == s;
    }
  }

  /** Split stops at the first separator: a separator-free head is the first piece. */
  lemma {:induction false} SplitAtFirst(a: string, sep: char, rest: string)
    requires sep !in a
    ensures Split(a + [sep] + rest, sep) == [a] + Split(rest, sep)
    decreases |a|
  {
    var s := a + [sep] + rest;
    if |a| == 0 {
      assert s[1..] == rest;
    } else {
      assert s[1..] == a[1..] + [sep] + rest;
      SplitAtFirst(a[1..], sep, rest);
      assert [a[0]] + a[1..] == a;
    }
  }

  /** Text without the separator splits into itself alone. */
  lemma {:induction false} SplitNoSeparator(a: string, sep: char)
    requires sep !in a
    ensures Split(a, sep) == [a]
    decreases |a|
  {
    if |a| > 0 {
      SplitNoSeparator(a[1..], sep);
      assert [a[0]] + a[1..] == a;
    }
  }

  /** Splitting is the inverse of joining separator-free pieces. */
  lemma {:induction false} SplitJoin(parts: seq<string>, sep: char)
    requires |parts| >= 1
    requires forall i :: 0 <= i < |parts| ==> sep !in parts[i]
    ensures Split(Join(parts, sep), sep) == parts
    decreases |parts|
  {
    if |parts| == 1 {
      SplitNoSeparator(parts[0], sep);
    } else {
      SplitJoin(parts[1..], sep);
      SplitAtFirst(parts[0], sep, Join(parts[1..], sep));
    }
  }

  /** JavaScript truthiness of a possibly absent string: present and non-empty. */
  predicate Truthy(s: Option<string>) {
    s.Some? && s.value != ""
  }
}

=== FILE: password_gen.dfy ===
/** The password generator of services/crypto/password-gen.ts. `Math.random()`
    is replaced by a supplied sequence of draws, each in [0, 1). */
module PasswordGen {
  import opened Wrappers

  const Lowercase: string := "abcdefghijklmnopqrstuvwxyz"
  const Uppercase: string := "ABCDEFGHIJKLMNOPQRSTUVWXYZ"
  const Numbers: string := "0123456789"
  const Symbols: string := "!@#$%^&*()_+-=[]{}|;:,.<>?"
  const DefaultLength: int := 16

  /** The optional fields of `PasswordOptions`; None is an absent field. */
  datatype PasswordOptions = PasswordOptions(
    length: Option<int>,
    includeUppercase: Option<bool>,
    includeLowercase: Option<bool>,
    includeNumbers: Option<bool>,
    includeSymbols: Option<bool>)

  /** The resolved `opts` object. */
  datatype Settings = Settings(length: int, upper: bool, lower: bool, numbers: bool, symbols: bool)

  /** `options?.length || 16` and the `??` defaults: absent and 0 lengths become
      16; upper, lower and numbers default on, symbols off. */
  function Resolve(options: Option<PasswordOptions>): (s: Settings)
    ensures options.None? ==> s == Settings(DefaultLength, true, true, true, false)
    ensures options.Some? ==>
      var o := options.value;
      && (s.length == DefaultLength <==> o.length.None? || o.length.value == 0 || o.length.value == DefaultLength)
      && (o.length.Some? && o.length.value != 0 ==> s.length == o.length.value)
      && (s.upper <==> o.includeUppercase != Some(false))
      && (s.lower <==> o.includeLowercase != Some(false))
      && (s.numbers <==> o.includeNumbers != Some(false))
      && (s.symbols <==> o.includeSymbols == Some(true))
  {
    match options
    case None => Settings(DefaultLength, true, true, true, false)
    case Some(o) =>
      Settings(
        if o.length.None? || o.length.value == 0 then DefaultLength else o.length.value,
        o.includeUppercase.GetOr(true),
        o.includeLowercase.GetOr(true),
        o.includeNumbers.GetOr(true),
        o.includeSymbols.GetOr(false))
  }

  /** The enabled classes concatenated in the order lower, upper, numbers,
      symbols; lower-case letters alone when every class is off. */
  function Charset(s: Settings): (chars: string)
    ensures |chars| > 0
    ensures forall c :: c in chars <==>
      || (s.lower && c in Lowercase)
      || (s.upper && c in Uppercase)
      || (s.numbers && c in Numbers)
      || (s.symbols && c in Symbols)
      || (!s.lower && !s.upper && !s.numbers && !s.symbols && c in Lowercase)
  {
    var chars :=
      (if s.lower then Lowercase else "")
      + (if s.upper then Uppercase else "")
      + (if s.numbers then Numbers else "")
      + (if s.symbols then Symbols else "");
    if |chars| == 0 then Lowercase else chars
  }

  /** Every class on: the four alphabets back to back, lower-case first, symbols last. */
  lemma CharsetOrder()
    ensures Charset(Settings(DefaultLength, true, true, true, true)) == Lowercase + Uppercase + Numbers + Symbols
    ensures |Charset(Settings(DefaultLength, true, true, true, true))| == 88
  {
  }

  /** `Math.floor(r * n)` for a draw `r` in [0, 1): an index into a charset of size `n`. */
  function PickIndex(r: real, n: nat): (i: nat)
    requires 0.0 <= r < 1.0 && n > 0
    ensures i < n
  {
    var x := r * (n as real);
    assert 0.0 <= x < n as real by {
      assert r * (n as real) < 1.0 * (n as real);
    }
    x.Floor
  }

  /** The number of characters the loop emits: `opts.length`, or none when it is negative. */
  function OutputLength(s: Settings): nat {
    if s.length < 0 then 0 else s.length
  }

  predicate ValidDraws(draws: seq<real>) {
    forall i :: 0 <= i < |draws| ==> 0.0 <= draws[i] < 1.0
  }

  /** `generatePassword(options)`: character i is picked from the charset by draw i. */
  method GeneratePassword(options: Option<PasswordOptions>, draws: seq<real>) returns (password: string)
    requires ValidDraws(draws)
    requires |draws| >= OutputLength(Resolve(options))
    ensures |password| == OutputLength(Resolve(options))
    ensures var chars := Charset(Resolve(options));
      forall i :: 0 <= i < |password| ==> password[i] == chars[PickIndex(draws[i], |chars|)]
    ensures forall i :: 0 <= i < |password| ==> password[i] in Charset(Resolve(options))
  {
    var opts := Resolve(options);
    var chars := Charset(opts);
    password := "";
    var i := 0;
    while i < opts.length
      invariant 0 <= i <= OutputLength(opts)
      invariant |password| == i
      invariant forall j :: 0 <= j < i ==> password[j] == chars[PickIndex(draws[j], |chars|)]
    {
      password := password + [chars[PickIndex(draws[i], |chars|)]];
      i := i + 1;
    }
  }

  lemma LowercaseRange(c: char)
    ensures c in Lowercase ==> 'a' <= c <= 'z'
  {
  }

  lemma UppercaseRange(c: char)
    ensures c in Uppercase ==> 'A' <= c <= 'Z'
  {
  }

  lemma NumbersRange(c: char)
    ensures c in Numbers ==> '0' <= c <= '9'
  {
  }

  lemma SymbolsOutsideRanges(c: char)
    ensures c in Symbols ==> !('a' <= c <= 'z') && !('A' <= c <= 'Z') && !('0' <= c <= '9')
  {
  }

  /** Ranges of the alphabets, so that membership can be decided by comparison. */
  lemma AlphabetRanges(c: char)
    ensures c in Lowercase ==> 'a' <= c <= 'z'
    ensures c in Uppercase ==> 'A' <= c <= 'Z'
    ensures c in Numbers ==> '0' <= c <= '9'
    ensures c in Symbols ==> !('a' <= c <= 'z') && !('A' <= c <= 'Z') && !('0' <= c <= '9')
  {
    LowercaseRange(c);
    UppercaseRange(c);
    NumbersRange(c);
    SymbolsOutsideRanges(c);
  }

  /** With default options no symbol can appear: the default charset holds letters and digits only. */
  lemma DefaultsHaveNoSymbols(c: char)
    requires c in Charset(Resolve(None))
    ensures c !in Symbols
    ensures c in Lowercase || c in Uppercase || c in Numbers
  {
    AlphabetRanges(c);
  }

  /** With every class switched off the charset is the lower-case alphabet. */
  lemma AllOffFallsBackToLowercase(length: int)
    ensures Charset(Settings(length, false, false, false, false)) == Lowercase
  {
  }
}

=== FILE: sqlite.dfy ===
/** The SQLite handle lifecycle of services/database/sqlite.ts: a module-level
    handle that is null or open, the database file's two tables, and the
    `db_version` row in `app_metadata`. The SQLite engine is an in-memory
    value; a statement that throws is chosen by a fault plan. */
module Sqlite {
  import opened Wrappers
  import opened JsNumbers
  import opened AppStorage

  const DbName: string := "lockup.db"
  const DbVersion: nat := 1
  const VersionKey: string := "db_version"

  /** A row of `vault_items`. */
  datatype Row = Row(id: int, pseudo: string, url: string, password_encrypted: string, created_at: string)

  /** The database file: each table is None until created. */
  datatype DbFile = DbFile(vaultItems: Option<seq<Row>>, appMetadata: Option<map<string, string>>)

  /** An open connection to the named file. */
  datatype Handle = Handle(name: string)

  /** The module-level `db` variable (None is `null`) and the file on disk. */
  datatype DbState = DbState(db: Option<Handle>, file: DbFile)

  datatype DbError = NotInitialised | EngineFailure

  /** `initDatabase()`: open (call 0); the one `execAsync` batch, whose two
      statements create `vault_items` (call 1) and then `app_metadata` (call 2)
      if absent; then `INSERT OR REPLACE` the version row (call 3). The handle
      is assigned as soon as the open succeeds. */
  function InitDatabase(st: DbState, faults: Faults): (r: (Result<(), DbError>, DbState))
    ensures r.0.Ok? <==> forall k :: 0 <= k < 4 ==> !CallFails(faults, k)
    ensures CallFails(faults, 0) ==> r.1 == st
    ensures !CallFails(faults, 0) ==> r.1.db == Some(Handle(DbName))
    ensures r.0.Ok? ==>
      && r.1.file.appMetadata.Some?
      && r.1.file.appMetadata.value == st.file.appMetadata.GetOr(map[])[VersionKey := "1"]
      && r.1.file.vaultItems == Some(st.file.vaultItems.GetOr([]))
  {
    if CallFails(faults, 0) then (Err(EngineFailure), st)
    else
      var s0 := st.(db := Some(Handle(DbName)));
      if CallFails(faults, 1) then (Err(EngineFailure), s0)
      else
        var s1 := s0.(file := s0.file.(vaultItems := Some(s0.file.vaultItems.GetOr([]))));
        if CallFails(faults, 2) then (Err(EngineFailure), s1)
        else
          var s2 := s1.(file := s1.file.(appMetadata := Some(s1.file.appMetadata.GetOr(map[]))));
          if CallFails(faults, 3) then (Err(EngineFailure), s2)
          else
            var meta := s2.file.appMetadata.value;
            (Ok(()), s2.(file := s2.file.(appMetadata := Some(meta[VersionKey := IntToRadix(DbVersion, 10)]))))
  }

  /** `getDatabase()`: throws while the handle is null. */
  function GetDatabase(st: DbState): (r: Result<Handle, DbError>)
    ensures r.Ok? <==> st.db.Some?
    ensures r.Ok? ==> r.value == st.db.value
    ensures r.Err? ==> r.error == NotInitialised
  {
    match st.db
    case None => Err(NotInitialised)
    case Some(h) => Ok(h)
  }

  /** `getDatabaseVersion()`: the parsed stored value; 0 when the handle is
      null, the table or the row is missing, or the query (call 0) throws. */
  function GetDatabaseVersion(st: DbState, faults: Faults): (v: JsNumber)
    ensures (st.db.None? || CallFails(faults, 0) || st.file.appMetadata.None?
             || VersionKey !in st.file.appMetadata.value) ==> v == Num(0)
    ensures (st.db.Some? && !CallFails(faults, 0) && st.file.appMetadata.Some?
             && VersionKey in st.file.appMetadata.value) ==>
      var parsed := ParseInt10(st.file.appMetadata.value[VersionKey]);
      && (v.NaN? <==> parsed.None?)
      && (v.Num? ==> parsed == Some(v.n))
  {
    match GetDatabase(st)
    case Err(_) => Num(0)
    case Ok(_) =>
      if CallFails(faults, 0) || st.file.appMetadata.None? then Num(0)
      else if VersionKey !in st.file.appMetadata.value then Num(0)
      else
        match ParseInt10(st.file.appMetadata.value[VersionKey])
        case None => NaN
        case Some(n) => Num(n)
  }

  /** `closeDatabase()`: a no-op on a null handle; otherwise close (call 0) and
      set the handle to null. A failing close throws and leaves the handle set. */
  function CloseDatabase(st: DbState, faults: Faults): (r: (Result<(), DbError>, DbState))
    ensures st.db.None? ==> r == (Ok(()), st)
    ensures r.1.file == st.file
    ensures r.0.Ok? ==> r.1.db.None?
    ensures r.0.Err? ==> r.1 == st && CallFails(faults, 0)
  {
    if st.db.None? then (Ok(()), st)
    else if CallFails(faults, 0) then (Err(EngineFailure), st)
    else (Ok(()), st.(db := None))
  }

  // ---------------------------------------------------------------------------
  // Lifecycle properties

  /** A successful init reports version 1 back. */
  lemma InitThenVersion(st: DbState, faults: Faults)
    requires InitDatabase(st, faults).0.Ok?
    ensures GetDatabaseVersion(InitDatabase(st, faults).1, NoFault) == Num(DbVersion)
  {
    ParseIntOfDecimal(DbVersion);
  }

  /** Initialising twice gives the state of initialising once: one `db_version`
      entry equal to "1", and the vault rows kept. */
  lemma InitIdempotent(st: DbState, f1: Faults, f2: Faults)
    requires InitDatabase(st, f1).0.Ok?
    requires InitDatabase(InitDatabase(st, f1).1, f2).0.Ok?
    ensures InitDatabase(InitDatabase(st, f1).1, f2).1 == InitDatabase(st, f1).1
  {
    var once := InitDatabase(st, f1).1;
    var meta := once.file.appMetadata.value;
    assert meta[VersionKey := "1"] == meta;
  }

  /** Re-initialising never drops existing vault rows. */
  lemma InitPreservesRows(st: DbState, faults: Faults, rows: seq<Row>)
    requires st.file.vaultItems == Some(rows)
    ensures InitDatabase(st, faults).1.file.vaultItems == Some(rows)
  {
  }

  /** After a close, `getDatabase` throws and the version reads as 0; closing again is a no-op. */
  lemma CloseThenUnavailable(st: DbState, faults: Faults)
    requires CloseDatabase(st, faults).0.Ok?
    ensures var after := CloseDatabase(st, faults).1;
      && GetDatabase(after) == Err(NotInitialised)
      && GetDatabaseVersion(after, NoFault) == Num(0)
      && CloseDatabase(after, faults) == (Ok(()), after)
  {
  }
}

=== FILE: unlock_storage.dfy ===
/** The unlock-code store of services/storage/unlock-storage.ts: a 6-character
    code whose 32-bit string hash sits in SecureStore, a "configured" flag in
    AsyncStorage, and the raw code kept in SecureStore as the encryption key. */
module UnlockStorage {
  import opened Wrappers
  import opened JsNumbers
  import opened JsStrings
  import opened AppStorage
  import VaultStorage

  const SecretCodeKey: string := "secret_code_hash"
  const IsConfiguredKey: string := "is_configured"
  const EncryptionKeyKey: string := "encryption_key"
  const CodeLength: nat := 6

  /** Both stores the unlock logic touches. */
  datatype Stores = Stores(secure: SecureStore, general: AsyncStore)

  datatype UnlockError = WrongLength | StorageFailure

  datatype Outcome = Outcome(result: Result<(), UnlockError>, stores: Stores)

  // ---------------------------------------------------------------------------
  // hashCode

  /** One loop step as written: `hash = ((hash << 5) - hash) + char; hash = hash & hash`.
      `<<` wraps its left operand and its result to 32 bits; the subtraction and
      addition are exact; `x & x` is ToInt32(x). */
  function JsHashStep(hash: int, unit: CodeUnit): int {
    var shifted := ToInt32(ToInt32(hash) * 32);
    ToInt32(shifted - hash + unit)
  }

  /** The hash after the loop has consumed all of `us`, starting from 0. */
  function HashUnits(us: seq<CodeUnit>): (h: int)
    ensures IsInt32(h)
    decreases |us|
  {
    if |us| == 0 then 0 else JsHashStep(HashUnits(us[..|us| - 1]), us[|us| - 1])
  }

  /** `hashCode(code)`: the hash of the code's UTF-16 units printed in base 36. */
  function HashCode(code: string): string {
    IntToRadix(HashUnits(CodeUnits(code)), 36)
  }

  /** Congruence modulo 2^32 survives scaling and adding. */
  lemma CongruentAffine(a: int, b: int, k: int, c: int)
    requires (a - b) % TwoTo32 == 0
    ensures ((k * a + c) - (k * b + c)) % TwoTo32 == 0
  {
    var q := (a - b) / TwoTo32;
    assert a - b == q * TwoTo32;
    assert (k * a + c) - (k * b + c) == (k * q) * TwoTo32;
  }

  /** Congruence modulo 2^32 is transitive. */
  lemma CongruentTrans(a: int, b: int, c: int)
    requires (a - b) % TwoTo32 == 0 && (b - c) % TwoTo32 == 0
    ensures (a - c) % TwoTo32 == 0
  {
    var q1 := (a - b) / TwoTo32;
    var q2 := (b - c) / TwoTo32;
    assert a - b == q1 * TwoTo32;
    assert b - c == q2 * TwoTo32;
    assert a - c == (q1 + q2) * TwoTo32;
  }

  /** On a 32-bit hash, each step is `h := int32(31 * h + unit)`. */
  lemma JsHashStepIs31(hash: int, unit: CodeUnit)
    requires IsInt32(hash)
    ensures JsHashStep(hash, unit) == ToInt32(31 * hash + unit)
  {
    ToInt32OfInt32(hash);
    var wide := hash * 32;
    var shifted := ToInt32(wide);
    var sum := shifted - hash + unit;
    var target := 31 * hash + unit;
    assert target - sum == wide - shifted;
    var r := ToInt32(sum);
    CongruentTrans(target, sum, r);
    ToInt32Unique(target, r);
  }

  /** A step whose exact result fits in 32 bits does not wrap. */
  lemma JsHashStepExact(hash: int, unit: CodeUnit)
    requires IsInt32(hash) && IsInt32(31 * hash + unit)
    ensures JsHashStep(hash, unit) == 31 * hash + unit
  {
    JsHashStepIs31(hash, unit);
    ToInt32OfInt32(31 * hash + unit);
  }

  /** Consuming one more unit is one more loop step. */
  lemma HashAppend(us: seq<CodeUnit>, u: CodeUnit)
    ensures HashUnits(us + [u]) == JsHashStep(HashUnits(us), u)
  {
    assert (us + [u])[..|us|] == us;
  }

  /** The polynomial `sum of us[i] * 31^(n-1-i)`, the textbook form of this string hash. */
  function Poly(us: seq<CodeUnit>): int
    decreases |us|
  {
    if |us| == 0 then 0 else 31 * Poly(us[..|us| - 1]) + us[|us| - 1]
  }

  /** The wrapped loop computes the polynomial reduced to a signed 32-bit value. */
  lemma {:induction false} HashIsWrappedPoly(us: seq<CodeUnit>)
    ensures HashUnits(us) == ToInt32(Poly(us))
    decreases |us|
  {
    if |us| == 0 {
      ToInt32OfInt32(0);
    } else {
      var init, last := us[..|us| - 1], us[|us| - 1];
      HashIsWrappedPoly(init);
      var h := HashUnits(init);
      var p := Poly(init);
      JsHashStepIs31(h, last);
      var r := ToInt32(31 * h + last);
      assert HashUnits(us) == r;
      assert Poly(us) == 31 * p + last;
      // h is congruent to p, so 31 * h + last is congruent to Poly(us)
      assert (p - h) % TwoTo32 == 0;
      CongruentAffine(p, h, 31, last);
      CongruentTrans(31 * p + last, 31 * h + last, r);
      ToInt32Unique(31 * p + last, r);
    }
  }

  /** Two codes have equal printed hashes exactly when their 32-bit hashes are equal. */
  lemma HashCodeEqual(a: string, b: string)
    ensures HashCode(a) == HashCode(b) <==> HashUnits(CodeUnits(a)) == HashUnits(CodeUnits(b))
  {
    RadixInjective(HashUnits(CodeUnits(a)), HashUnits(CodeUnits(b)), 36);
  }

  /** The empty string hashes to "0". */
  lemma HashOfEmpty()
    ensures HashCode("") == "0"
  {
    assert CodeUnits("") == [];
  }

  /** Appending a unit whose step does not wrap gives `31 * h + u` exactly. */
  lemma HashSnocExact(us: seq<CodeUnit>, u: CodeUnit, h: int)
    requires HashUnits(us) == h && IsInt32(31 * h + u)
    ensures HashUnits(us + [u]) == 31 * h + u
  {
    HashAppend(us, u);
    JsHashStepExact(h, u);
  }

  /** Hashes of ASCII text, computed step by step from the loop. */
  lemma HashOfAaAUnits()
    ensures HashUnits([65, 97, 65]) == 65537
  {
    HashSnocExact([], 65, 0);
    assert [] + [65] == [65];
    HashSnocExact([65], 97, 65);
    assert [65] + [97] == [65, 97];
    HashSnocExact([65, 97], 65, 2112);
    assert [65, 97] + [65] == [65, 97, 65];
  }

  lemma HashOfAaAaAaUnits()
    ensures HashUnits([65, 97, 65, 97, 65, 97]) == 1952508096
  {
    HashOfAaAUnits();
    HashSnocExact([65, 97, 65], 97, 65537);
    assert [65, 97, 65] + [97] == [65, 97, 65, 97];
    HashSnocExact([65, 97, 65, 97], 65, 2031744);
    assert [65, 97, 65, 97] + [65] == [65, 97, 65, 97, 65];
    HashSnocExact([65, 97, 65, 97, 65], 97, 62984129);
    assert [65, 97, 65, 97, 65] + [97] == [65, 97, 65, 97, 65, 97];
  }

  lemma HashOfAaAaAa()
    ensures HashUnits(CodeUnits("AaAaAa")) == 1952508096
  {
    JsLengthOfBmp("AaAaAa");
    assert CodeUnits("AaAaAa") == [65, 97, 65, 97, 65, 97];
    HashOfAaAaAaUnits();
  }


  lemma HashOfBBBUnits()
    ensures HashUnits([66, 66, 66]) == 65538
  {
    HashSnocExact([], 66, 0);
    assert [] + [66] == [66];
    HashSnocExact([66], 66, 66);
    assert [66] + [66] == [66, 66];
    HashSnocExact([66, 66], 66, 2112);
    assert [66, 66] + [66] == [66, 66, 66];
  }

  lemma HashOfBBBBBBUnits()
    ensures HashUnits([66, 66, 66, 66, 66, 66]) == 1952508096
  {
    HashOfBBBUnits();
    HashSnocExact([66, 66, 66], 66, 65538);
    assert [66, 66, 66] + [66] == [66, 66, 66, 66];
    HashSnocExact([66, 66, 66, 66], 66, 2031744);
    assert [66, 66, 66, 66] + [66] == [66, 66, 66, 66, 66];
    HashSnocExact([66, 66, 66, 66, 66], 66, 62984130);
    assert [66, 66, 66, 66, 66] + [66] == [66, 66, 66, 66, 66, 66];
  }

  lemma HashOfBBBBBB()
    ensures HashUnits(CodeUnits("BBBBBB")) == 1952508096
  {
    JsLengthOfBmp("BBBBBB");
    assert CodeUnits("BBBBBB") == [66, 66, 66, 66, 66, 66];
    HashOfBBBBBBUnits();
  }

  /** Six 'z's overflow 2^31 and wrap to a negative hash, printed with a '-'. */
  lemma HashOfZzzUnits()
    ensures HashUnits([122, 122, 122]) == 121146
  {
    HashSnocExact([], 122, 0);
    assert [] + [122] == [122];
    HashSnocExact([122], 122, 122);
    assert [122] + [122] == [122, 122];
    HashSnocExact([122, 122], 122, 3904);
    assert [122, 122] + [122] == [122, 122, 122];
  }

  lemma HashOfZzzzzUnits()
    ensures HashUnits([122, 122, 122, 122, 122]) == 116425210
  {
    HashOfZzzUnits();
    HashSnocExact([122, 122, 122], 122, 121146);
    assert [122, 122, 122] + [122] == [122, 122, 122, 122];
    HashSnocExact([122, 122, 122, 122], 122, 3755648);
    assert [122, 122, 122, 122] + [122] == [122, 122, 122, 122, 122];
  }

  lemma HashOfZzzzzzIsNegativeUnits()
    ensures HashUnits([122, 122, 122, 122, 122, 122]) == -685785664
  {
    HashOfZzzzzUnits();
    var us := [122, 122, 122, 122, 122];
    HashAppend(us, 122);
    JsHashStepIs31(116425210, 122);
    ToInt32Unique(31 * 116425210 + 122, -685785664);
    assert us + [122] == [122, 122, 122, 122, 122, 122];
  }

  lemma HashOfZzzzzzIsNegative()
    ensures HashUnits(CodeUnits("zzzzzz")) == -685785664
    ensures HashCode("zzzzzz")[0] == '-'
  {
    JsLengthOfBmp("zzzzzz");
    assert CodeUnits("zzzzzz") == [122, 122, 122, 122, 122, 122];
    HashOfZzzzzzIsNegativeUnits();
  }

  // ---------------------------------------------------------------------------
  // isAppConfigured, setupSecretCode, verifySecretCode, getEncryptionKey, resetApp

  /** True only when the flag reads back as exactly "true"; false when the read (call 0) throws. */
  function IsAppConfigured(st: Stores, faults: Faults): (configured: bool)
    ensures configured <==> !CallFails(faults, 0) && IsConfiguredKey in st.general
                            && st.general[IsConfiguredKey] == Text("true")
  {
    if CallFails(faults, 0) then false
    else IsConfiguredKey in st.general && st.general[IsConfiguredKey] == Text("true")
  }

  /** Rejects any code whose length is not 6 before touching storage; otherwise
      writes the hash (call 0), the flag (call 1) and the raw code (call 2),
      stopping at the first write that throws. */
  function SetupSecretCode(st: Stores, code: string, faults: Faults): (r: Outcome)
    ensures JsLength(code) != CodeLength ==> r == Outcome(Err(WrongLength), st)
    ensures r.result.Ok? <==>
      JsLength(code) == CodeLength && !CallFails(faults, 0) && !CallFails(faults, 1) && !CallFails(faults, 2)
    ensures r.result.Ok? ==>
      && r.stores.secure == st.secure[SecretCodeKey := HashCode(code)][EncryptionKeyKey := code]
      && r.stores.general == st.general[IsConfiguredKey := Text("true")]
    // A write that throws leaves the earlier writes in place.
    ensures JsLength(code) == CodeLength && CallFails(faults, 0) ==> r == Outcome(Err(StorageFailure), st)
    ensures JsLength(code) == CodeLength && !CallFails(faults, 0) && CallFails(faults, 1) ==>
      r == Outcome(Err(StorageFailure), Stores(st.secure[SecretCodeKey := HashCode(code)], st.general))
    ensures JsLength(code) == CodeLength && !CallFails(faults, 0) && !CallFails(faults, 1) && CallFails(faults, 2) ==>
      r == Outcome(Err(StorageFailure),
                   Stores(st.secure[SecretCodeKey := HashCode(code)], st.general[IsConfiguredKey := Text("true")]))
  {
    if JsLength(code) != CodeLength then Outcome(Err(WrongLength), st)
    else
      var hashed := HashCode(code);
      if CallFails(faults, 0) then Outcome(Err(StorageFailure), st)
      else
        var st1 := st.(secure := st.secure[SecretCodeKey := hashed]);
        if CallFails(faults, 1) then Outcome(Err(StorageFailure), st1)
        else
          var st2 := st1.(general := st1.general[IsConfiguredKey := Text("true")]);
          if CallFails(faults, 2) then Outcome(Err(StorageFailure), st2)
          else Outcome(Ok(()), st2.(secure := st2.secure[EncryptionKeyKey := code]))
  }

  /** False without reading storage for a wrong length; false when the read
      (call 0) throws or no hash is stored; otherwise whether the hashes match. */
  function VerifySecretCode(st: Stores, code: string, faults: Faults): (ok: bool)
    ensures ok <==>
      && JsLength(code) == CodeLength
      && !CallFails(faults, 0)
      && SecretCodeKey in st.secure
      && st.secure[SecretCodeKey] == HashCode(code)
  {
    if JsLength(code) != CodeLength then false
    else if CallFails(faults, 0) then false
    else if SecretCodeKey !in st.secure || st.secure[SecretCodeKey] == "" then false
    else st.secure[SecretCodeKey] == HashCode(code)
  }

  /** The stored raw code, or None when absent or when the read (call 0) throws. */
  function GetEncryptionKey(st: Stores, faults: Faults): (key: Option<string>)
    ensures key.Some? <==> !CallFails(faults, 0) && EncryptionKeyKey in st.secure
    ensures key.Some? ==> key.value == st.secure[EncryptionKeyKey]
  {
    if CallFails(faults, 0) || EncryptionKeyKey !in st.secure then None
    else Some(st.secure[EncryptionKeyKey])
  }

  /** Deletes the hash (call 0), the raw code (call 1), the flag (call 2) and
      the vault list (call 3), stopping at the first deletion that throws. */
  function ResetApp(st: Stores, faults: Faults): (r: Outcome)
    ensures r.result.Ok? <==> forall k :: 0 <= k < 4 ==> !CallFails(faults, k)
    ensures r.result.Ok? ==>
      && r.stores.secure == st.secure - {SecretCodeKey, EncryptionKeyKey}
      && r.stores.general == st.general - {IsConfiguredKey, VaultStorage.VaultKey}
    // A deletion that throws leaves the earlier deletions done and the later ones not.
    ensures CallFails(faults, 0) ==> r == Outcome(Err(StorageFailure), st)
    ensures !CallFails(faults, 0) && CallFails(faults, 1) ==>
      r == Outcome(Err(StorageFailure), Stores(st.secure - {SecretCodeKey}, st.general))
    ensures !CallFails(faults, 0) && !CallFails(faults, 1) && CallFails(faults, 2) ==>
      r == Outcome(Err(StorageFailure), Stores(st.secure - {SecretCodeKey, EncryptionKeyKey}, st.general))
    ensures !CallFails(faults, 0) && !CallFails(faults, 1) && !CallFails(faults, 2) && CallFails(faults, 3) ==>
      r == Outcome(Err(StorageFailure), Stores(st.secure - {SecretCodeKey, EncryptionKeyKey}, st.general - {IsConfiguredKey}))
  {
    if CallFails(faults, 0) then Outcome(Err(StorageFailure), st)
    else
      var st1 := st.(secure := st.secure - {SecretCodeKey});
      if CallFails(faults, 1) then Outcome(Err(StorageFailure), st1)
      else
        var st2 := st1.(secure := st1.secure - {EncryptionKeyKey});
        if CallFails(faults, 2) then Outcome(Err(StorageFailure), st2)
        else
          var st3 := st2.(general := st2.general - {IsConfiguredKey});
          if CallFails(faults, 3) then Outcome(Err(StorageFailure), st3)
          else Outcome(Ok(()), st3.(general := st3.general - {VaultStorage.VaultKey}))
  }

  // ---------------------------------------------------------------------------
  // Properties across operations

  /** A reset that throws after deleting the hash leaves the app configured
      with no code that verifies: the user is locked out. */
  lemma InterruptedResetLocksOut(st: Stores, faults: Faults, code: string)
    requires IsAppConfigured(st, NoFault)
    requires !CallFails(faults, 0) && (CallFails(faults, 1) || CallFails(faults, 2))
    ensures var after := ResetApp(st, faults);
      && after.result.Err?
      && IsAppConfigured(after.stores, NoFault)
      && !VerifySecretCode(after.stores, code, NoFault)
  {
  }

  /** A setup that throws on the key write unlocks with the new code while
      the encryption key is still whatever was stored before. */
  lemma SetupFailingAtKeyWrite(st: Stores, code: string, faults: Faults)
    requires JsLength(code) == CodeLength
    requires !CallFails(faults, 0) && !CallFails(faults, 1) && CallFails(faults, 2)
    ensures var after := SetupSecretCode(st, code, faults);
      && after.result.Err?
      && VerifySecretCode(after.stores, code, NoFault)
      && IsAppConfigured(after.stores, NoFault)
      && GetEncryptionKey(after.stores, NoFault) == GetEncryptionKey(st, NoFault)
  {
  }

  /** A successful setup unlocks with the same code, marks the app configured
      and makes that very code the encryption key. */
  lemma SetupThenUnlock(st: Stores, code: string, faults: Faults)
    requires JsLength(code) == CodeLength
    requires !CallFails(faults, 0) && !CallFails(faults, 1) && !CallFails(faults, 2)
    ensures var after := SetupSecretCode(st, code, faults).stores;
      && VerifySecretCode(after, code, NoFault)
      && IsAppConfigured(after, NoFault)
      && GetEncryptionKey(after, NoFault) == Some(code)
  {
  }

  /** After setup with `code`, a candidate is accepted exactly when it has
      length 6 and the same 32-bit hash: equality of codes is not required. */
  lemma VerifyAfterSetup(st: Stores, code: string, candidate: string, faults: Faults)
    requires JsLength(code) == CodeLength
    requires !CallFails(faults, 0) && !CallFails(faults, 1) && !CallFails(faults, 2)
    ensures VerifySecretCode(SetupSecretCode(st, code, faults).stores, candidate, NoFault)
      <==> JsLength(candidate) == CodeLength
           && HashUnits(CodeUnits(candidate)) == HashUnits(CodeUnits(code))
  {
    HashCodeEqual(candidate, code);
  }

  /** Hash collisions unlock the app: "BBBBBB" opens a vault set up with "AaAaAa". */
  lemma CollidingCodeUnlocks(st: Stores)
    ensures SetupSecretCode(st, "AaAaAa", NoFault).result.Ok?
    ensures VerifySecretCode(SetupSecretCode(st, "AaAaAa", NoFault).stores, "BBBBBB", NoFault)
  {
    JsLengthOfBmp("AaAaAa");
    JsLengthOfBmp("BBBBBB");
    HashOfAaAaAa();
    HashOfBBBBBB();
    VerifyAfterSetup(st, "AaAaAa", "BBBBBB", NoFault);
  }

  /** A successful reset forgets the code, the key, the flag and the vault. */
  lemma ResetForgetsEverything(st: Stores, faults: Faults, code: string, vaultFaults: Faults)
    requires ResetApp(st, faults).result.Ok?
    ensures var after := ResetApp(st, faults).stores;
      && !IsAppConfigured(after, NoFault)
      && GetEncryptionKey(after, NoFault) == None
      && !VerifySecretCode(after, code, NoFault)
      && VaultStorage.GetVaultItems(after.general, vaultFaults) == []
  {
  }
}

=== FILE: vault_routes.dfy ===
/** The vault REST routes of backend/src/routes/vault.routes.js, mounted
    behind the bearer-token middleware. PostgreSQL's `vault_items` table is an
    in-memory sequence of rows plus its SERIAL counter; a query that throws is
    an explicit input. */
module VaultRoutes {
  import opened Wrappers
  import opened JsNumbers
  import opened JsStrings
  import opened AuthMiddleware

  /** A `vault_items` row; `created_at` is a timestamp. */
  datatype Row = Row(id: int, user_id: int, pseudo: string, url: string, password_encrypted: string, created_at: int)

  /** What `RETURNING id, pseudo, url, password_encrypted, created_at` sends back: no user_id. */
  datatype ItemView = ItemView(id: int, pseudo: string, url: string, password_encrypted: string, created_at: int)

  function View(r: Row): ItemView {
    ItemView(r.id, r.pseudo, r.url, r.password_encrypted, r.created_at)
  }

  /** The table and the next value of its SERIAL id sequence. */
  datatype Table = Table(rows: seq<Row>, nextId: int)

  /** The three body fields; None is an absent field (or no body at all). */
  datatype Body = Body(pseudo: Option<string>, url: Option<string>, password_encrypted: Option<string>)

  datatype Payload = Items(items: seq<ItemView>) | Item(item: ItemView) | Error(message: string) | Empty

  datatype Response = Response(status: int, payload: Payload)

  const NotFoundMessage: string := "Introuvable"
  const ServerErrorMessage: string := "Erreur serveur"
  const MissingFieldsMessage: string := "Champs requis manquants"
  const NothingToUpdateMessage: string := "Aucune donnée à mettre à jour"

  /** `req.body || {}`. */
  function BodyOrEmpty(body: Option<Body>): Body {
    body.GetOr(Body(None, None, None))
  }

  // ---------------------------------------------------------------------------
  // Table invariant

  /** Ids are unique and all below the SERIAL counter. */
  predicate ValidTable(t: Table) {
    && (forall i, j :: 0 <= i < j < |t.rows| ==> t.rows[i].id != t.rows[j].id)
    && (forall i :: 0 <= i < |t.rows| ==> t.rows[i].id < t.nextId)
  }

  /** The caller's rows, in table order. */
  function MineRows(rows: seq<Row>, user: int): (r: seq<Row>)
    ensures forall x :: x in r <==> x in rows && x.user_id == user
    decreases |rows|
  {
    if |rows| == 0 then []
    else (if rows[0].user_id == user then [rows[0]] else []) + MineRows(rows[1..], user)
  }

  /** The rows some other user owns, in table order. */
  function OthersRows(rows: seq<Row>, user: int): (r: seq<Row>)
    ensures forall x :: x in r <==> x in rows && x.user_id != user
    decreases |rows|
  {
    if |rows| == 0 then []
    else (if rows[0].user_id != user then [rows[0]] else []) + OthersRows(rows[1..], user)
  }

  lemma {:induction false} OthersConcat(a: seq<Row>, b: seq<Row>, user: int)
    ensures OthersRows(a + b, user) == OthersRows(a, user) + OthersRows(b, user)
    decreases |a|
  {
    if |a| == 0 {
      assert a + b == b;
    } else {
      assert (a + b)[1..] == a[1..] + b;
      OthersConcat(a[1..], b, user);
    }
  }

  /** The rows `WHERE id=$1 AND user_id=$2` selects. */
  function RowsFor(rows: seq<Row>, id: int, user: int): (r: seq<Row>)
    ensures forall x :: x in r <==> x in rows && x.id == id && x.user_id == user
    decreases |rows|
  {
    if |rows| == 0 then []
    else (if rows[0].id == id && rows[0].user_id == user then [rows[0]] else []) + RowsFor(rows[1..], id, user)
  }

  /** The rows a `DELETE … WHERE id=$1 AND user_id=$2` leaves. */
  function WithoutRow(rows: seq<Row>, id: int, user: int): (r: seq<Row>)
    ensures forall x :: x in r <==> x in rows && !(x.id == id && x.user_id == user)
    decreases |rows|
  {
    if |rows| == 0 then []
    else (if rows[0].id == id && rows[0].user_id == user then [] else [rows[0]]) + WithoutRow(rows[1..], id, user)
  }

  // ---------------------------------------------------------------------------
  // GET /  — newest first

  predicate SortedDesc(items: seq<ItemView>) {
    forall i, j :: 0 <= i < j < |items| ==> items[i].created_at >= items[j].created_at
  }

  function InsertDesc(x: ItemView, s: seq<ItemView>): (r: seq<ItemView>)
    requires SortedDesc(s)
    ensures SortedDesc(r)
    ensures multiset(r) == multiset(s) + multiset{x}
    decreases |s|
  {
    if |s| == 0 then [x]
    else if x.created_at >= s[0].created_at then [x] + s
    else
      var rest := InsertDesc(x, s[1..]);
      assert s == [s[0]] + s[1..];
      NoneNewerThanHead(x, s, rest);
      [s[0]] + rest
  }

  /** Inserting an older item behind the head keeps the head the newest. */
  lemma NoneNewerThanHead(x: ItemView, s: seq<ItemView>, rest: seq<ItemView>)
    requires SortedDesc(s) && |s| > 0 && x.created_at < s[0].created_at
    requires multiset(rest) == multiset(s[1..]) + multiset{x}
    ensures forall k :: 0 <= k < |rest| ==> rest[k].created_at <= s[0].created_at
  {
    forall k | 0 <= k < |rest| ensures rest[k].created_at <= s[0].created_at {
      assert rest[k] in multiset(rest);
      if rest[k] != x {
        assert rest[k] in multiset(s[1..]);
        var j :| 0 <= j < |s[1..]| && s[1..][j] == rest[k];
        assert s[j + 1] == rest[k];
      }
    }
  }

  /** `ORDER BY created_at DESC`. */
  function SortDesc(s: seq<ItemView>): (r: seq<ItemView>)
    ensures SortedDesc(r)
    ensures multiset(r) == multiset(s)
    decreases |s|
  {
    if |s| == 0 then []
    else
      assert s == [s[0]] + s[1..];
      InsertDesc(s[0], SortDesc(s[1..]))
  }

  function Views(rows: seq<Row>): (vs: seq<ItemView>)
    ensures |vs| == |rows|
    ensures forall i :: 0 <= i < |rows| ==> vs[i] == View(rows[i])
  {
    seq(|rows|, i requires 0 <= i < |rows| => View(rows[i]))
  }

  /** `SELECT … WHERE user_id=$1 ORDER BY created_at DESC`. */
  function ListItems(t: Table, user: int, dbFails: bool): (r: Response)
    ensures dbFails ==> r == Response(500, Error(ServerErrorMessage))
    ensures !dbFails ==>
      && r.status == 200 && r.payload.Items? && SortedDesc(r.payload.items)
      && multiset(r.payload.items) == multiset(Views(MineRows(t.rows, user)))
  {
    if dbFails then Response(500, Error(ServerErrorMessage))
    else Response(200, Items(SortDesc(Views(MineRows(t.rows, user)))))
  }

  // ---------------------------------------------------------------------------
  // GET /:id

  /** `SELECT … WHERE id=$1 AND user_id=$2`: 404 when no row matches. */
  function GetItem(t: Table, user: int, id: int, dbFails: bool): (r: Response)
    ensures dbFails ==> r == Response(500, Error(ServerErrorMessage))
    ensures !dbFails ==> (r.status == 404 <==> RowsFor(t.rows, id, user) == [])
    ensures !dbFails && RowsFor(t.rows, id, user) == [] ==> r == Response(404, Error(NotFoundMessage))
    ensures !dbFails && RowsFor(t.rows, id, user) != [] ==> r.status == 200
    ensures r.status == 200 ==>
      && r.payload.Item?
      && exists row :: row in t.rows && row.id == id && row.user_id == user && View(row) == r.payload.item
  {
    if dbFails then Response(500, Error(ServerErrorMessage))
    else
      var found := RowsFor(t.rows, id, user);
      if |found| == 0 then Response(404, Error(NotFoundMessage))
      else
        assert found[0] in found;
        Response(200, Item(View(found[0])))
  }

  // ---------------------------------------------------------------------------
  // POST /

  /** `INSERT … RETURNING …`: 400 unless all three fields are truthy, 500 when the insert throws, else 201 with the new row. */
  function CreateItem(t: Table, user: int, body: Option<Body>, now: int, dbFails: bool): (r: (Response, Table))
    ensures var b := BodyOrEmpty(body);
      && ((!(Truthy(b.pseudo) && Truthy(b.url) && Truthy(b.password_encrypted)))
            ==> r == (Response(400, Error(MissingFieldsMessage)), t))
      && (r.0.status == 201 <==> Truthy(b.pseudo) && Truthy(b.url) && Truthy(b.password_encrypted) && !dbFails)
      && (r.0.status != 201 ==> r.1 == t)
      && ((Truthy(b.pseudo) && Truthy(b.url) && Truthy(b.password_encrypted) && dbFails)
            ==> r == (Response(500, Error(ServerErrorMessage)), t))
      && (r.0.status == 201 ==>
            var row := Row(t.nextId, user, b.pseudo.value, b.url.value, b.password_encrypted.value, now);
            r.1 == Table(t.rows + [row], t.nextId + 1) && r.0.payload == Item(View(row)))
  {
    var b := BodyOrEmpty(body);
    if !Truthy(b.pseudo) || !Truthy(b.url) || !Truthy(b.password_encrypted) then
      (Response(400, Error(MissingFieldsMessage)), t)
    else if dbFails then (Response(500, Error(ServerErrorMessage)), t)
    else
      var row := Row(t.nextId, user, b.pseudo.value, b.url.value, b.password_encrypted.value, now);
      (Response(201, Item(View(row))), Table(t.rows + [row], t.nextId + 1))
  }

  // ---------------------------------------------------------------------------
  // PUT /:id  — the dynamic SET clause

  datatype Column = Pseudo | Url | PasswordEncrypted

  function ColumnName(c: Column): string {
    match c
    case Pseudo => "pseudo"
    case Url => "url"
    case PasswordEncrypted => "password_encrypted"
  }

  /** The fixed order in which the handler considers the columns. */
  function Rank(c: Column): nat {
    match c
    case Pseudo => 0
    case Url => 1
    case PasswordEncrypted => 2
  }

  function FieldOf(b: Body, c: Column): Option<string> {
    match c
    case Pseudo => b.pseudo
    case Url => b.url
    case PasswordEncrypted => b.password_encrypted
  }

  /** A bound query parameter: a body field or an id. */
  datatype Value = Text(text: string) | Number(n: int)

  /** One `column=$placeholder` entry of the SET clause. */
  datatype Assignment = Assignment(column: Column, placeholder: nat)

  /** The statement the handler sends: SET entries, the WHERE placeholders and `values`. */
  datatype UpdateQuery = UpdateQuery(
    assignments: seq<Assignment>,
    idPlaceholder: nat,
    userPlaceholder: nat,
    values: seq<Value>)

  /** The builder's state: `fields`, `values` and `idx`. */
  datatype Builder = Builder(assignments: seq<Assignment>, values: seq<Value>, idx: nat)

  /** A truthy field adds the entry `column=$idx` and its value, and bumps `idx`. */
  function PushIfTruthy(acc: Builder, c: Column, field: Option<string>): Builder {
    if Truthy(field) then Builder(acc.assignments + [Assignment(c, acc.idx)], acc.values + [Text(field.value)], acc.idx + 1)
    else acc
  }

  /** The columns whose body field is truthy, in handler order. */
  function SelectedColumns(b: Body): seq<Column> {
    (if Truthy(b.pseudo) then [Pseudo] else [])
    + (if Truthy(b.url) then [Url] else [])
    + (if Truthy(b.password_encrypted) then [PasswordEncrypted] else [])
  }

  /** The statement the PUT handler builds: the truthy fields in order, then the id and the user id. */
  function BuildUpdate(id: int, user: int, b: Body): (q: UpdateQuery)
  {
    var acc := Builder([], [], 1);
    var acc := PushIfTruthy(acc, Pseudo, b.pseudo);
    var acc := PushIfTruthy(acc, Url, b.url);
    var acc := PushIfTruthy(acc, PasswordEncrypted, b.password_encrypted);
    UpdateQuery(acc.assignments, acc.idx, acc.idx + 1, acc.values + [Number(id)] + [Number(user)])
  }

  /** Assignments `cols[i]=$(i+1)`. */
  function Numbered(cols: seq<Column>): (r: seq<Assignment>)
    ensures |r| == |cols|
    ensures forall i :: 0 <= i < |cols| ==> r[i] == Assignment(cols[i], i + 1)
  {
    seq(|cols|, i requires 0 <= i < |cols| => Assignment(cols[i], i + 1))
  }

  /** The body values of `cols`, in order. */
  function FieldValues(b: Body, cols: seq<Column>): (r: seq<Value>)
    requires forall i :: 0 <= i < |cols| ==> FieldOf(b, cols[i]).Some?
    ensures |r| == |cols|
    ensures forall i :: 0 <= i < |cols| ==> r[i] == Text(FieldOf(b, cols[i]).value)
  {
    seq(|cols|, i requires 0 <= i < |cols| => Text(FieldOf(b, cols[i]).value))
  }

  predicate AllTruthy(b: Body, cols: seq<Column>) {
    forall i :: 0 <= i < |cols| ==> Truthy(FieldOf(b, cols[i]))
  }

  /** One push keeps the builder in the shape "columns `cols`, numbered from 1". */
  lemma PushLayout(acc: Builder, b: Body, cols: seq<Column>, c: Column)
    requires AllTruthy(b, cols)
    requires acc == Builder(Numbered(cols), FieldValues(b, cols), |cols| + 1)
    ensures var cols' := cols + (if Truthy(FieldOf(b, c)) then [c] else []);
      && AllTruthy(b, cols')
      && PushIfTruthy(acc, c, FieldOf(b, c)) == Builder(Numbered(cols'), FieldValues(b, cols'), |cols'| + 1)
  {
  }

  /** The three pushes of the handler leave the builder in layout shape for the selected columns. */
  lemma PushAllLayout(b: Body)
    ensures AllTruthy(b, SelectedColumns(b))
    ensures var acc := PushIfTruthy(PushIfTruthy(PushIfTruthy(Builder([], [], 1), Pseudo, b.pseudo), Url, b.url),
                                    PasswordEncrypted, b.password_encrypted);
      var cols := SelectedColumns(b);
      acc == Builder(Numbered(cols), FieldValues(b, cols), |cols| + 1)
  {
    var c0: seq<Column> := [];
    var acc0 := Builder([], [], 1);
    assert acc0 == Builder(Numbered(c0), FieldValues(b, c0), 1);
    PushLayout(acc0, b, c0, Pseudo);
    var c1 := c0 + (if Truthy(b.pseudo) then [Pseudo] else []);
    var acc1 := PushIfTruthy(acc0, Pseudo, b.pseudo);
    PushLayout(acc1, b, c1, Url);
    var c2 := c1 + (if Truthy(b.url) then [Url] else []);
    var acc2 := PushIfTruthy(acc1, Url, b.url);
    PushLayout(acc2, b, c2, PasswordEncrypted);
    var c3 := c2 + (if Truthy(b.password_encrypted) then [PasswordEncrypted] else []);
    assert c3 == SelectedColumns(b);
  }

  /** The builder pushes the selected columns with placeholders 1, 2, … and their values. */
  lemma BuildUpdateLayout(id: int, user: int, b: Body)
    ensures AllTruthy(b, SelectedColumns(b))
    ensures var q := BuildUpdate(id, user, b);
      var cols := SelectedColumns(b);
      && q.assignments == Numbered(cols)
      && q.values == FieldValues(b, cols) + [Number(id), Number(user)]
      && q.idPlaceholder == |cols| + 1 && q.userPlaceholder == |cols| + 2
  {
    PushAllLayout(b);
    var acc := PushIfTruthy(PushIfTruthy(PushIfTruthy(Builder([], [], 1), Pseudo, b.pseudo), Url, b.url),
                            PasswordEncrypted, b.password_encrypted);
    assert acc.values + [Number(id)] + [Number(user)] == acc.values + [Number(id), Number(user)];
  }

  /** The SET clause lists exactly the truthy fields, in the order pseudo, url,
      password_encrypted, numbered $1..$k; the WHERE clause uses $(k+1) for the
      id and $(k+2) for the user; and each placeholder $i binds `values[i-1]`. */
  lemma BuildUpdatePlaceholders(id: int, user: int, b: Body)
    ensures var q := BuildUpdate(id, user, b);
      && |q.values| == |q.assignments| + 2
      && (forall i :: 0 <= i < |q.assignments| ==> q.assignments[i].placeholder == i + 1)
      && (forall i, j :: 0 <= i < j < |q.assignments| ==> Rank(q.assignments[i].column) < Rank(q.assignments[j].column))
      && (forall c :: (exists i :: 0 <= i < |q.assignments| && q.assignments[i].column == c) <==> Truthy(FieldOf(b, c)))
      && (forall i :: 0 <= i < |q.assignments| ==>
            q.values[q.assignments[i].placeholder - 1] == Text(FieldOf(b, q.assignments[i].column).value))
      && q.idPlaceholder == |q.assignments| + 1 && q.values[q.idPlaceholder - 1] == Number(id)
      && q.userPlaceholder == |q.assignments| + 2 && q.values[q.userPlaceholder - 1] == Number(user)
  {
    BuildUpdateLayout(id, user, b);
    var q := BuildUpdate(id, user, b);
    var cols := SelectedColumns(b);
    forall c ensures (exists i :: 0 <= i < |q.assignments| && q.assignments[i].column == c) <==> Truthy(FieldOf(b, c)) {
      if Truthy(FieldOf(b, c)) {
        var i := if c == Pseudo then 0
                 else if c == Url then (if Truthy(b.pseudo) then 1 else 0)
                 else (if Truthy(b.pseudo) then 1 else 0) + (if Truthy(b.url) then 1 else 0);
        assert cols[i] == c;
        assert q.assignments[i].column == c;
      }
    }
  }

  /** `$n` in the SQL text. */
  function Placeholder(n: nat): string {
    "$" + NatToRadix(n, 10)
  }

  /** `fields.join(', ')`. */
  function JoinComma(parts: seq<string>): string
    decreases |parts|
  {
    if |parts| == 0 then "" else if |parts| == 1 then parts[0] else parts[0] + ", " + JoinComma(parts[1..])
  }

  function RenderSet(assignments: seq<Assignment>): seq<string> {
    seq(|assignments|, i requires 0 <= i < |assignments| =>
      ColumnName(assignments[i].column) + "=" + Placeholder(assignments[i].placeholder))
  }

  /** The SQL text of the statement. */
  function UpdateSql(q: UpdateQuery): string {
    "UPDATE vault_items SET " + JoinComma(RenderSet(q.assignments))
    + " WHERE id=" + Placeholder(q.idPlaceholder) + " AND user_id=" + Placeholder(q.userPlaceholder)
    + Returning
  }

  const Returning := " RETURNING id, pseudo, url, password_encrypted, created_at"

  lemma JoinCommaThree(a: string, b: string, c: string)
    ensures JoinComma([a, b, c]) == a + ", " + b + ", " + c
  {
    assert [a, b, c][1..] == [b, c];
    assert [b, c][1..] == [c];
    assert JoinComma([b, c]) == b + ", " + c;
    assert a + ", " + (b + ", " + c) == a + ", " + b + ", " + c;
  }

  lemma SmallPlaceholders()
    ensures Placeholder(1) == "$1" && Placeholder(2) == "$2" && Placeholder(3) == "$3"
    ensures Placeholder(4) == "$4" && Placeholder(5) == "$5"
  {
  }

  lemma RenderFull(q: UpdateQuery)
    requires q.assignments == [Assignment(Pseudo, 1), Assignment(Url, 2), Assignment(PasswordEncrypted, 3)]
    ensures RenderSet(q.assignments) == ["pseudo=$1", "url=$2", "password_encrypted=$3"]
  {
    var set_ := RenderSet(q.assignments);
    SmallPlaceholders();
    assert set_[0] == "pseudo=$1" && set_[1] == "url=$2" && set_[2] == "password_encrypted=$3";
    assert set_ == [set_[0], set_[1], set_[2]];
  }

  /** The statement text, given the texts of its three variable parts. */
  lemma UpdateSqlOf(q: UpdateQuery, setText: string, idText: string, userText: string)
    requires JoinComma(RenderSet(q.assignments)) == setText
    requires Placeholder(q.idPlaceholder) == idText && Placeholder(q.userPlaceholder) == userText
    ensures UpdateSql(q) == "UPDATE vault_items SET " + setText + " WHERE id=" + idText + " AND user_id=" + userText + Returning
  {
  }

  lemma JoinFull()
    ensures JoinComma(["pseudo=$1", "url=$2", "password_encrypted=$3"]) == "pseudo=$1, url=$2, password_encrypted=$3"
  {
    JoinCommaThree("pseudo=$1", "url=$2", "password_encrypted=$3");
  }

  lemma FullSetSql(q: UpdateQuery)
    requires q.assignments == [Assignment(Pseudo, 1), Assignment(Url, 2), Assignment(PasswordEncrypted, 3)]
    requires q.idPlaceholder == 4 && q.userPlaceholder == 5
    ensures UpdateSql(q)
      == "UPDATE vault_items SET " + "pseudo=$1, url=$2, password_encrypted=$3"
         + " WHERE id=" + "$4" + " AND user_id=" + "$5" + Returning
  {
    RenderFull(q);
    JoinFull();
    SmallPlaceholders();
    UpdateSqlOf(q, "pseudo=$1, url=$2, password_encrypted=$3", "$4", "$5");
  }

  lemma UrlOnlySetSql(q: UpdateQuery)
    requires q.assignments == [Assignment(Url, 1)]
    requires q.idPlaceholder == 2 && q.userPlaceholder == 3
    ensures UpdateSql(q)
      == "UPDATE vault_items SET " + "url=$1" + " WHERE id=" + "$2" + " AND user_id=" + "$3" + Returning
  {
    SmallPlaceholders();
    assert RenderSet(q.assignments)[0] == "url=$1";
  }

  /** All three fields: `SET pseudo=$1, url=$2, password_encrypted=$3 WHERE id=$4 AND user_id=$5`. */
  lemma FullUpdateSql(id: int, user: int, p: string, u: string, pw: string)
    requires p != "" && u != "" && pw != ""
    ensures UpdateSql(BuildUpdate(id, user, Body(Some(p), Some(u), Some(pw))))
      == "UPDATE vault_items SET " + "pseudo=$1, url=$2, password_encrypted=$3"
         + " WHERE id=" + "$4" + " AND user_id=" + "$5" + Returning
  {
    var b := Body(Some(p), Some(u), Some(pw));
    BuildUpdateLayout(id, user, b);
    assert SelectedColumns(b) == [Pseudo, Url, PasswordEncrypted];
    var n := Numbered([Pseudo, Url, PasswordEncrypted]);
    assert n[0] == Assignment(Pseudo, 1) && n[1] == Assignment(Url, 2) && n[2] == Assignment(PasswordEncrypted, 3);
    assert n == [Assignment(Pseudo, 1), Assignment(Url, 2), Assignment(PasswordEncrypted, 3)];
    FullSetSql(BuildUpdate(id, user, b));
  }

  /** Only the url: `SET url=$1 WHERE id=$2 AND user_id=$3`. */
  lemma UrlOnlyUpdateSql(id: int, user: int, u: string)
    requires u != ""
    ensures UpdateSql(BuildUpdate(id, user, Body(None, Some(u), Some(""))))
      == "UPDATE vault_items SET " + "url=$1" + " WHERE id=" + "$2" + " AND user_id=" + "$3" + Returning
    ensures BuildUpdate(id, user, Body(None, Some(u), Some(""))).values == [Text(u), Number(id), Number(user)]
  {
    var b := Body(None, Some(u), Some(""));
    BuildUpdateLayout(id, user, b);
    assert SelectedColumns(b) == [Url];
    var n := Numbered([Url]);
    assert n == [Assignment(Url, 1)];
    var v := FieldValues(b, [Url]);
    assert v == [Text(u)];
    UrlOnlySetSql(BuildUpdate(id, user, b));
  }

  // The database side: how PostgreSQL runs the statement

  /** Placeholders all bind a value, and SET placeholders bind text. */
  predicate WellFormed(q: UpdateQuery) {
    && 1 <= q.idPlaceholder <= |q.values|
    && 1 <= q.userPlaceholder <= |q.values|
    && forall i :: 0 <= i < |q.assignments| ==>
         1 <= q.assignments[i].placeholder <= |q.values| && q.values[q.assignments[i].placeholder - 1].Text?
  }

  predicate Matches(q: UpdateQuery, r: Row)
    requires WellFormed(q)
  {
    q.values[q.idPlaceholder - 1] == Number(r.id) && q.values[q.userPlaceholder - 1] == Number(r.user_id)
  }

  function SetColumn(r: Row, c: Column, v: string): Row {
    match c
    case Pseudo => r.(pseudo := v)
    case Url => r.(url := v)
    case PasswordEncrypted => r.(password_encrypted := v)
  }

  /** Applies the SET entries left to right, each reading its bound value. */
  function ApplySet(q: UpdateQuery, r: Row, k: nat): Row
    requires WellFormed(q) && k <= |q.assignments|
    decreases k
  {
    if k == 0 then r
    else
      var a := q.assignments[k - 1];
      SetColumn(ApplySet(q, r, k - 1), a.column, q.values[a.placeholder - 1].text)
  }

  /** The rows after the statement: every matching row rewritten, the rest untouched. */
  function ExecuteUpdate(q: UpdateQuery, rows: seq<Row>): (after: seq<Row>)
    requires WellFormed(q)
    ensures |after| == |rows|
  {
    seq(|rows|, i requires 0 <= i < |rows| =>
      if Matches(q, rows[i]) then ApplySet(q, rows[i], |q.assignments|) else rows[i])
  }

  /** What the update means: each truthy field of the body replaces the row's. */
  function MergeBody(r: Row, b: Body): Row {
    r.(pseudo := if Truthy(b.pseudo) then b.pseudo.value else r.pseudo,
       url := if Truthy(b.url) then b.url.value else r.url,
       password_encrypted := if Truthy(b.password_encrypted) then b.password_encrypted.value else r.password_encrypted)
  }

  /** Running the built statement changes exactly the row with that id and
      user, and changes it by merging the truthy body fields. */
  lemma BuiltUpdateMeansMerge(id: int, user: int, b: Body, rows: seq<Row>)
    ensures WellFormed(BuildUpdate(id, user, b))
    ensures var after := ExecuteUpdate(BuildUpdate(id, user, b), rows);
      forall i :: 0 <= i < |rows| ==>
        after[i] == if rows[i].id == id && rows[i].user_id == user then MergeBody(rows[i], b) else rows[i]
  {
    BuildUpdateLayout(id, user, b);
    var q := BuildUpdate(id, user, b);
    var after := ExecuteUpdate(q, rows);
    forall i | 0 <= i < |rows|
      ensures after[i] == if rows[i].id == id && rows[i].user_id == user then MergeBody(rows[i], b) else rows[i]
    {
      var r := rows[i];
      if Matches(q, r) {
        ApplyBuiltSet(id, user, b, r);
      }
    }
  }

  /** Setting the listed columns to their body values, left to right. */
  function SetAll(r: Row, b: Body, cols: seq<Column>): Row
    requires AllTruthy(b, cols)
    decreases |cols|
  {
    if |cols| == 0 then r
    else SetColumn(SetAll(r, b, cols[..|cols| - 1]), cols[|cols| - 1], FieldOf(b, cols[|cols| - 1]).value)
  }

  lemma {:induction false} ApplySetIsSetAll(q: UpdateQuery, b: Body, cols: seq<Column>, r: Row, k: nat)
    requires AllTruthy(b, cols)
    requires q.assignments == Numbered(cols) && |q.values| >= |cols|
    requires q.values[..|cols|] == FieldValues(b, cols)
    requires WellFormed(q) && k <= |cols|
    ensures ApplySet(q, r, k) == SetAll(r, b, cols[..k])
    decreases k
  {
    if k > 0 {
      ApplySetIsSetAll(q, b, cols, r, k - 1);
      assert cols[..k][..k - 1] == cols[..k - 1];
      assert q.values[k - 1] == q.values[..|cols|][k - 1];
    }
  }

  /** `[c]` when the body's field for `c` is truthy, else nothing. */
  function IfTruthy(b: Body, c: Column): seq<Column> {
    if Truthy(FieldOf(b, c)) then [c] else []
  }

  /** Appending one optional column sets that column, or does nothing. */
  lemma SetAllStep(r: Row, b: Body, cols: seq<Column>, c: Column)
    requires AllTruthy(b, cols)
    ensures AllTruthy(b, cols + IfTruthy(b, c))
    ensures SetAll(r, b, cols + IfTruthy(b, c))
         == if Truthy(FieldOf(b, c)) then SetColumn(SetAll(r, b, cols), c, FieldOf(b, c).value) else SetAll(r, b, cols)
  {
    var s := cols + IfTruthy(b, c);
    if Truthy(FieldOf(b, c)) {
      assert s[..|s| - 1] == cols;
    } else {
      assert s == cols;
    }
  }

  /** Setting the selected columns is merging the body. */
  lemma SetAllSelected(r: Row, b: Body)
    ensures AllTruthy(b, SelectedColumns(b))
    ensures SetAll(r, b, SelectedColumns(b)) == MergeBody(r, b)
  {
    var c0: seq<Column> := [];
    SetAllStep(r, b, c0, Pseudo);
    var c1 := c0 + IfTruthy(b, Pseudo);
    SetAllStep(r, b, c1, Url);
    var c2 := c1 + IfTruthy(b, Url);
    SetAllStep(r, b, c2, PasswordEncrypted);
    assert c2 + IfTruthy(b, PasswordEncrypted) == SelectedColumns(b);
  }

  /** The built statement binds every SET placeholder to the column's text, in column order. */
  lemma BuiltWellFormed(id: int, user: int, b: Body)
    ensures var q := BuildUpdate(id, user, b);
      var cols := SelectedColumns(b);
      && AllTruthy(b, cols) && WellFormed(q)
      && q.assignments == Numbered(cols) && |q.values| >= |cols|
      && q.values[..|cols|] == FieldValues(b, cols)
  {
    BuildUpdateLayout(id, user, b);
    var q := BuildUpdate(id, user, b);
    var cols := SelectedColumns(b);
    var fv := FieldValues(b, cols);
    assert q.values[..|cols|] == fv;
    forall i | 0 <= i < |q.assignments|
      ensures 1 <= q.assignments[i].placeholder <= |q.values| && q.values[q.assignments[i].placeholder - 1].Text?
    {
      assert q.assignments[i] == Assignment(cols[i], i + 1);
      assert q.values[i] == fv[i];
    }
  }

  lemma ApplyBuiltSet(id: int, user: int, b: Body, r: Row)
    ensures WellFormed(BuildUpdate(id, user, b))
    ensures ApplySet(BuildUpdate(id, user, b), r, |BuildUpdate(id, user, b).assignments|) == MergeBody(r, b)
  {
    BuiltWellFormed(id, user, b);
    var q := BuildUpdate(id, user, b);
    var cols := SelectedColumns(b);
    ApplySetIsSetAll(q, b, cols, r, |cols|);
    assert cols[..|cols|] == cols;
    SetAllSelected(r, b);
  }

  /** The row sequence after merging `b` into the row with (id, user). */
  predicate MergedAt(rows: seq<Row>, after: seq<Row>, id: int, user: int, b: Body) {
    && |after| == |rows|
    && forall i :: 0 <= i < |rows| ==>
         after[i] == if rows[i].id == id && rows[i].user_id == user then MergeBody(rows[i], b) else rows[i]
  }

  /** Running the built statement on the table: 404 when no row has (id, user),
      else 200 with the merged row, every other row untouched. */
  function RunUpdate(t: Table, user: int, id: int, b: Body): (r: (Response, Table))
    ensures r.0.status == 404 <==> RowsFor(t.rows, id, user) == []
    ensures r.0.status == 404 ==> r == (Response(404, Error(NotFoundMessage)), t)
    ensures r.0.status != 404 ==>
      && r.0.status == 200 && r.1.nextId == t.nextId && MergedAt(t.rows, r.1.rows, id, user, b)
      && r.0.payload.Item?
      && exists i :: 0 <= i < |t.rows| && t.rows[i].id == id && t.rows[i].user_id == user
           && r.0.payload.item == View(MergeBody(t.rows[i], b))
  {
    var q := BuildUpdate(id, user, b);
    BuiltUpdateMeansMerge(id, user, b, t.rows);
    var after := ExecuteUpdate(q, t.rows);
    var returned := RowsFor(after, id, user);
    MergeKeepsMatches(t.rows, after, id, user, b);
    if |returned| == 0 then
      // The statement ran and matched nothing, so the table it leaves is the old one.
      BuildUpdatePlaceholders(id, user, b);
      UnmatchedUpdateChangesNothing(q, id, user, t.rows);
      (Response(404, Error(NotFoundMessage)), Table(after, t.nextId))
    else
      assert returned[0] in returned;
      var i :| 0 <= i < |after| && after[i] == returned[0];
      (Response(200, Item(View(returned[0]))), Table(after, t.nextId))
  }

  /** The PUT handler: 400 for no truthy field, 500 when the query throws,
      otherwise the outcome of the statement. */
  function UpdateItem(t: Table, user: int, id: int, body: Option<Body>, dbFails: bool): (r: (Response, Table))
    ensures var b := BodyOrEmpty(body);
      var any := Truthy(b.pseudo) || Truthy(b.url) || Truthy(b.password_encrypted);
      && (!any ==> r == (Response(400, Error(NothingToUpdateMessage)), t))
      && (any && dbFails ==> r == (Response(500, Error(ServerErrorMessage)), t))
      && (any && !dbFails ==> (r.0.status == 404 <==> RowsFor(t.rows, id, user) == []))
      && (any && !dbFails && RowsFor(t.rows, id, user) != [] ==> r.0.status == 200)
      && (r.0.status == 404 ==> r == (Response(404, Error(NotFoundMessage)), t))
      && (r.0.status == 200 ==>
            && r.1.nextId == t.nextId && MergedAt(t.rows, r.1.rows, id, user, b)
            && r.0.payload.Item?
            && exists i :: 0 <= i < |t.rows| && t.rows[i].id == id && t.rows[i].user_id == user
                 && r.0.payload.item == View(MergeBody(t.rows[i], b)))
  {
    var b := BodyOrEmpty(body);
    if !Truthy(b.pseudo) && !Truthy(b.url) && !Truthy(b.password_encrypted) then
      (Response(400, Error(NothingToUpdateMessage)), t)
    else if dbFails then (Response(500, Error(ServerErrorMessage)), t)
    else RunUpdate(t, user, id, b)
  }

  /** Merging keeps ids and owners, so the same (id, user) rows exist before and after. */
  lemma MergeKeepsMatches(rows: seq<Row>, after: seq<Row>, id: int, user: int, b: Body)
    requires MergedAt(rows, after, id, user, b)
    ensures RowsFor(after, id, user) == [] <==> RowsFor(rows, id, user) == []
  {
    if RowsFor(rows, id, user) != [] {
      var x := RowsFor(rows, id, user)[0];
      assert x in RowsFor(rows, id, user);
      var i :| 0 <= i < |rows| && rows[i] == x;
      assert after[i] in RowsFor(after, id, user);
    }
    if RowsFor(after, id, user) != [] {
      var x := RowsFor(after, id, user)[0];
      assert x in RowsFor(after, id, user);
      var i :| 0 <= i < |after| && after[i] == x;
      assert rows[i] in RowsFor(rows, id, user);
    }
  }

  lemma UnmatchedUpdateChangesNothing(q: UpdateQuery, id: int, user: int, rows: seq<Row>)
    requires WellFormed(q)
    requires q.values[q.idPlaceholder - 1] == Number(id) && q.values[q.userPlaceholder - 1] == Number(user)
    requires RowsFor(ExecuteUpdate(q, rows), id, user) == []
    ensures ExecuteUpdate(q, rows) == rows
  {
    var after := ExecuteUpdate(q, rows);
    forall i | 0 <= i < |rows| ensures !Matches(q, rows[i]) {
      ApplySetKeepsKey(q, rows[i], |q.assignments|);
      assert after[i] in after;
    }
  }

  /** SET never touches the id or the owner. */
  lemma {:induction false} ApplySetKeepsKey(q: UpdateQuery, r: Row, k: nat)
    requires WellFormed(q) && k <= |q.assignments|
    ensures ApplySet(q, r, k).id == r.id && ApplySet(q, r, k).user_id == r.user_id
    ensures ApplySet(q, r, k).created_at == r.created_at
    decreases k
  {
    if k > 0 {
      ApplySetKeepsKey(q, r, k - 1);
    }
  }

  // ---------------------------------------------------------------------------
  // DELETE /:id

  /** `DELETE … WHERE id=$1 AND user_id=$2 RETURNING id`: 404 when nothing matched, else 204. */
  function DeleteItem(t: Table, user: int, id: int, dbFails: bool): (r: (Response, Table))
    ensures dbFails ==> r == (Response(500, Error(ServerErrorMessage)), t)
    ensures !dbFails ==> (r.0.status == 404 <==> RowsFor(t.rows, id, user) == [])
    ensures !dbFails && RowsFor(t.rows, id, user) != [] ==> r.0.status == 204
    ensures r.0.status == 404 ==> r == (Response(404, Error(NotFoundMessage)), t)
    ensures r.0.status == 204 ==>
      && r.0.payload == Empty
      && r.1 == Table(WithoutRow(t.rows, id, user), t.nextId)
  {
    if dbFails then (Response(500, Error(ServerErrorMessage)), t)
    else
      var kept := WithoutRow(t.rows, id, user);
      if |RowsFor(t.rows, id, user)| == 0 then (Response(404, Error(NotFoundMessage)), t)
      else (Response(204, Empty), Table(kept, t.nextId))
  }

  // ---------------------------------------------------------------------------
  // The router: authentication first, then the route

  datatype Request =
    | ListAll
    | GetOne(id: int)
    | Create(body: Option<Body>)
    | Update(id: int, body: Option<Body>)
    | Remove(id: int)

  /** `router.use(authMiddleware)` followed by the matching route. `now` is the
      insertion time and `dbFails` whether the route's query throws. */
  function Handle(t: Table, header: Option<string>, verify: string -> Option<Claims>, req: Request,
                  now: int, dbFails: bool): (r: (Response, Table))
    ensures Authenticate(header, verify).Reject? ==>
      r == (Response(401, Error(Authenticate(header, verify).error)), t)
    ensures Authenticate(header, verify).Next? ==> r.0.status != 401
  {
    match Authenticate(header, verify)
    case Reject(status, error) => (Response(status, Error(error)), t)
    case Next(claims) =>
      var user := claims.id;
      match req
      case ListAll => (ListItems(t, user, dbFails), t)
      case GetOne(id) => (GetItem(t, user, id, dbFails), t)
      case Create(body) => CreateItem(t, user, body, now, dbFails)
      case Update(id, body) => UpdateItem(t, user, id, body, dbFails)
      case Remove(id) => DeleteItem(t, user, id, dbFails)
  }

  // ---------------------------------------------------------------------------
  // Properties

  /** Every route keeps the table valid: ids unique and below the counter. */
  lemma HandleKeepsTableValid(t: Table, header: Option<string>, verify: string -> Option<Claims>,
                              req: Request, now: int, dbFails: bool)
    requires ValidTable(t)
    ensures ValidTable(Handle(t, header, verify, req, now, dbFails).1)
  {
    match Authenticate(header, verify)
    case Reject(_, _) =>
    case Next(claims) =>
      var user := claims.id;
      match req
      case ListAll =>
      case GetOne(_) =>
      case Create(body) => CreateKeepsValid(t, user, body, now, dbFails);
      case Update(id, body) => UpdateKeepsValid(t, user, id, body, dbFails);
      case Remove(id) =>
        if !dbFails && |RowsFor(t.rows, id, user)| != 0 {
          WithoutRowKeepsValid(t, id, user);
        }
  }

  /** An insert appends a row whose id is the old counter and bumps the counter. */
  lemma CreateKeepsValid(t: Table, user: int, body: Option<Body>, now: int, dbFails: bool)
    requires ValidTable(t)
    ensures ValidTable(CreateItem(t, user, body, now, dbFails).1)
  {
    var after := CreateItem(t, user, body, now, dbFails).1;
    if after != t {
      forall i, j | 0 <= i < j < |after.rows| ensures after.rows[i].id != after.rows[j].id {
        if j < |t.rows| { assert after.rows[i] == t.rows[i] && after.rows[j] == t.rows[j]; }
        else { assert after.rows[i] == t.rows[i]; }
      }
      forall i | 0 <= i < |after.rows| ensures after.rows[i].id < after.nextId {
        if i < |t.rows| { assert after.rows[i] == t.rows[i]; }
      }
    }
  }

  /** An update rewrites rows in place without touching their ids or the counter. */
  lemma UpdateKeepsValid(t: Table, user: int, id: int, body: Option<Body>, dbFails: bool)
    requires ValidTable(t)
    ensures ValidTable(UpdateItem(t, user, id, body, dbFails).1)
  {
    var r := UpdateItem(t, user, id, body, dbFails);
    var b := BodyOrEmpty(body);
    if r.0.status == 200 {
      forall i | 0 <= i < |t.rows| ensures r.1.rows[i].id == t.rows[i].id {
        assert MergedAt(t.rows, r.1.rows, id, user, b);
      }
    } else {
      assert r.1 == t;
    }
  }

  lemma {:induction false} WithoutRowKeepsValid(t: Table, id: int, user: int)
    requires ValidTable(t)
    ensures ValidTable(Table(WithoutRow(t.rows, id, user), t.nextId))
    decreases |t.rows|
  {
    if |t.rows| > 0 {
      var tail := Table(t.rows[1..], t.nextId);
      WithoutRowKeepsValid(tail, id, user);
      var f := WithoutRow(t.rows, id, user);
      var ft := WithoutRow(tail.rows, id, user);
      if !(t.rows[0].id == id && t.rows[0].user_id == user) {
        assert f == [t.rows[0]] + ft;
        forall j | 0 < j < |f| ensures f[0].id != f[j].id {
          assert f[j] in ft;
          var k :| 0 <= k < |tail.rows| && tail.rows[k] == f[j];
          assert t.rows[k + 1] == f[j];
        }
      }
    }
  }

  /** Users are isolated: whatever the request, the rows other users own are
      exactly as before, in the same order, and any item returned is the
      caller's. */
  lemma HandleIsolatesUsers(t: Table, header: Option<string>, verify: string -> Option<Claims>,
                            req: Request, now: int, dbFails: bool)
    requires Authenticate(header, verify).Next?
    ensures var user := Authenticate(header, verify).user.id;
      var (resp, after) := Handle(t, header, verify, req, now, dbFails);
      && OthersRows(after.rows, user) == OthersRows(t.rows, user)
      && (resp.payload.Item? ==>
            exists row :: row in after.rows && row.user_id == user && View(row) == resp.payload.item)
      && (resp.payload.Items? ==>
            forall v :: v in resp.payload.items ==> exists row :: row in t.rows && row.user_id == user && View(row) == v)
  {
    var user := Authenticate(header, verify).user.id;
    var (resp, after) := Handle(t, header, verify, req, now, dbFails);
    match req
    case ListAll =>
      if !dbFails {
        var mine := MineRows(t.rows, user);
        forall v | v in resp.payload.items
          ensures exists row :: row in t.rows && row.user_id == user && View(row) == v
        {
          assert v in multiset(Views(mine));
          var i :| 0 <= i < |mine| && Views(mine)[i] == v;
          assert mine[i] in mine;
        }
      }
    case GetOne(id) =>
    case Create(body) =>
      if resp.status == 201 {
        var b := BodyOrEmpty(body);
        var row := Row(t.nextId, user, b.pseudo.value, b.url.value, b.password_encrypted.value, now);
        OthersConcat(t.rows, [row], user);
        assert row in after.rows;
      }
    case Update(id, body) =>
      if after != t {
        var b := BodyOrEmpty(body);
        BuiltUpdateMeansMerge(id, user, b, t.rows);
        UpdateKeepsOthers(t.rows, after.rows, id, user, b);
        var returned := RowsFor(after.rows, id, user);
        assert returned[0] in returned;
      } else if resp.status == 200 {
        var b := BodyOrEmpty(body);
        var q := BuildUpdate(id, user, b);
        BuiltUpdateMeansMerge(id, user, b, t.rows);
        var returned := RowsFor(ExecuteUpdate(q, t.rows), id, user);
        assert returned[0] in returned;
      }
    case Remove(id) =>
      if after != t {
        RemoveKeepsOthers(t.rows, id, user);
      }
  }

  lemma {:induction false} UpdateKeepsOthers(rows: seq<Row>, after: seq<Row>, id: int, user: int, b: Body)
    requires MergedAt(rows, after, id, user, b)
    ensures OthersRows(after, user) == OthersRows(rows, user)
    decreases |rows|
  {
    if |rows| > 0 {
      UpdateKeepsOthers(rows[1..], after[1..], id, user, b);
      assert after[0].user_id == rows[0].user_id;
      assert after[0].user_id != user ==> after[0] == rows[0];
    }
  }

  lemma {:induction false} RemoveKeepsOthers(rows: seq<Row>, id: int, user: int)
    ensures OthersRows(WithoutRow(rows, id, user), user) == OthersRows(rows, user)
    decreases |rows|
  {
    if |rows| > 0 {
      RemoveKeepsOthers(rows[1..], id, user);
      var head := if rows[0].id == id && rows[0].user_id == user then [] else [rows[0]];
      OthersConcat(head, WithoutRow(rows[1..], id, user), user);
    }
  }
}

=== FILE: vault_storage.dfy ===
/** The local vault record list of services/storage/vault-storage.ts: a
    JSON array of VaultItem kept under the AsyncStorage key "vault_items". */
module VaultStorage {
  import opened Wrappers
  import opened AppStorage

  const VaultKey: string := "vault_items"

  datatype VaultError = StorageFailure | NotFound(id: int)

  /** The fields an update may supply; None means the key is absent from the object. */
  datatype Patch = Patch(
    pseudo: Option<string>,
    url: Option<string>,
    password_encrypted: Option<string>)

  predicate HasId(items: seq<VaultItem>, id: int) {
    exists i :: 0 <= i < |items| && items[i].id == id
  }

  predicate UniqueIds(items: seq<VaultItem>) {
    forall i, j :: 0 <= i < j < |items| ==> items[i].id != items[j].id
  }

  // ---------------------------------------------------------------------------
  // getVaultItems

  /** The stored list; the empty list when the key is absent, when the value
      is not an item list, or when the read throws (storage call 0). */
  function GetVaultItems(store: AsyncStore, faults: Faults): (items: seq<VaultItem>)
    ensures CallFails(faults, 0) || VaultKey !in store || store[VaultKey].Text? ==> items == []
    ensures (!CallFails(faults, 0) && VaultKey in store && store[VaultKey].ItemList?)
      ==> items == store[VaultKey].items
  {
    if CallFails(faults, 0) then []
    else if VaultKey !in store then []
    else match store[VaultKey]
      case Text(_) => []
      case ItemList(items) => items
  }

  // ---------------------------------------------------------------------------
  // addVaultItem

  /** The largest id of a non-empty list. */
  function MaxId(items: seq<VaultItem>): (m: int)
    requires |items| > 0
    ensures forall i :: 0 <= i < |items| ==> items[i].id <= m
    ensures exists i :: 0 <= i < |items| && items[i].id == m
    decreases |items|
  {
    if |items| == 1 then items[0].id
    else
      var rest := MaxId(items[1..]);
      assert forall i :: 1 <= i < |items| ==> items[i] == items[1..][i - 1];
      if items[0].id >= rest then items[0].id else rest
  }

  /** The id `addVaultItem` allocates: one past the largest id, or 1 for an empty list. */
  function NextId(items: seq<VaultItem>): (id: int)
    ensures forall i :: 0 <= i < |items| ==> items[i].id < id
    ensures |items| == 0 ==> id == 1
    ensures |items| > 0 ==> HasId(items, id - 1)
  {
    if |items| > 0 then MaxId(items) + 1 else 1
  }

  /** Reads the list (a failed read counts as empty), appends a new item with
      the next id and writes the list back (storage call 1). `now` is the
      ISO timestamp `new Date().toISOString()` would produce. */
  function AddVaultItem(store: AsyncStore, pseudo: string, url: string, encryptedPassword: string,
                        now: string, faults: Faults): (r: Step<VaultItem, VaultError>)
    ensures r.result.Ok? <==> !CallFails(faults, 1)
    ensures r.result.Err? ==> r.result.error == StorageFailure && r.store == store
    ensures r.result.Ok? ==>
      var items := GetVaultItems(store, faults);
      var item := r.result.value;
      && item == VaultItem(item.id, pseudo, url, encryptedPassword, now)
      && !HasId(items, item.id)
      && (forall i :: 0 <= i < |items| ==> items[i].id < item.id)
      && item.id == NextId(items)
      && (|items| == 0 ==> item.id == 1)
      && (|items| > 0 ==> HasId(items, item.id - 1))
      && r.store == store[VaultKey := ItemList(items + [item])]
  {
    var items := GetVaultItems(store, faults);
    var newItem := VaultItem(NextId(items), pseudo, url, encryptedPassword, now);
    if CallFails(faults, 1) then Step(Err(StorageFailure), store)
    else Step(Ok(newItem), store[VaultKey := ItemList(items + [newItem])])
  }

  /** An add keeps ids unique and leaves every earlier item where it was. */
  lemma AddKeepsIdsUnique(store: AsyncStore, pseudo: string, url: string, pw: string,
                          now: string, faults: Faults)
    requires UniqueIds(GetVaultItems(store, faults))
    requires !CallFails(faults, 1)
    ensures var r := AddVaultItem(store, pseudo, url, pw, now, faults);
      var after := GetVaultItems(r.store, NoFault);
      var before := GetVaultItems(store, faults);
      && UniqueIds(after)
      && |after| == |before| + 1
      && after[..|before|] == before
      && after[|before|] == r.result.value
  {
    var r := AddVaultItem(store, pseudo, url, pw, now, faults);
    var after := GetVaultItems(r.store, NoFault);
    var before := GetVaultItems(store, faults);
    assert after == before + [r.result.value];
    forall i, j | 0 <= i < j < |after| ensures after[i].id != after[j].id {
      if j == |before| {
        assert after[i] == before[i];
      } else {
        assert after[i] == before[i] && after[j] == before[j];
      }
    }
  }

  /** A failed or corrupt read is taken for an empty vault, so an add then
      overwrites whatever was stored with a one-element list whose id is 1. */
  lemma AddAfterUnreadableStore(store: AsyncStore, pseudo: string, url: string, pw: string, now: string)
    ensures var r := AddVaultItem(store, pseudo, url, pw, now, FailAt(0));
      && r.result == Ok(VaultItem(1, pseudo, url, pw, now))
      && r.store[VaultKey] == ItemList([VaultItem(1, pseudo, url, pw, now)])
  {
  }

  // ---------------------------------------------------------------------------
  // updateVaultItem

  /** `findIndex(item => item.id === id)`: the first position holding `id`. */
  function FindIndex(items: seq<VaultItem>, id: int): (r: Option<nat>)
    ensures r.None? <==> !HasId(items, id)
    ensures r.Some? ==> r.value < |items| && items[r.value].id == id
                        && forall j :: 0 <= j < r.value ==> items[j].id != id
    decreases |items|
  {
    if |items| == 0 then None
    else if items[0].id == id then Some(0)
    else
      match FindIndex(items[1..], id)
      case None => None
      case Some(k) => Some(k + 1)
  }

  /** `{ ...item, ...data }`: supplied fields replace the item's, the rest is kept. */
  function Merge(item: VaultItem, data: Patch): (m: VaultItem)
    ensures m.id == item.id && m.created_at == item.created_at
    ensures m.pseudo == data.pseudo.GetOr(item.pseudo)
    ensures m.url == data.url.GetOr(item.url)
    ensures m.password_encrypted == data.password_encrypted.GetOr(item.password_encrypted)
  {
    item.(pseudo := data.pseudo.GetOr(item.pseudo),
          url := data.url.GetOr(item.url),
          password_encrypted := data.password_encrypted.GetOr(item.password_encrypted))
  }

  /** Merges `data` into the first item with `id` and writes the list back
      (storage call 1); throws NotFound, writing nothing, when no item has it. */
  function UpdateVaultItem(store: AsyncStore, id: int, data: Patch, faults: Faults): (r: Step<(), VaultError>)
    ensures var items := GetVaultItems(store, faults);
      && (r.result == Err(NotFound(id)) <==> !HasId(items, id))
      && (r.result.Err? ==> r.store == store)
      && (r.result.Ok? <==> HasId(items, id) && !CallFails(faults, 1))
      && (r.result.Ok? ==>
            VaultKey in r.store && r.store[VaultKey].ItemList? &&
            var after := r.store[VaultKey].items;
            && r.store == store[VaultKey := ItemList(after)]
            && |after| == |items|
            && exists k :: 0 <= k < |items| && items[k].id == id
                 && (forall j :: 0 <= j < k ==> items[j].id != id)
                 && after[k] == Merge(items[k], data)
                 && forall j :: 0 <= j < |items| && j != k ==> after[j] == items[j])
  {
    var items := GetVaultItems(store, faults);
    match FindIndex(items, id)
    case None => Step(Err(NotFound(id)), store)
    case Some(index) =>
      if CallFails(faults, 1) then Step(Err(StorageFailure), store)
      else Step(Ok(()), store[VaultKey := ItemList(items[index := Merge(items[index], data)])])
  }

  /** Updating never changes any id, so unique ids stay unique. */
  lemma UpdateKeepsIdsUnique(store: AsyncStore, id: int, data: Patch, faults: Faults)
    requires UniqueIds(GetVaultItems(store, faults))
    ensures var r := UpdateVaultItem(store, id, data, faults);
      r.result.Ok? ==> UniqueIds(GetVaultItems(r.store, NoFault))
  {
    var r := UpdateVaultItem(store, id, data, faults);
    if r.result.Ok? {
      var items := GetVaultItems(store, faults);
      var after := GetVaultItems(r.store, NoFault);
      assert forall j :: 0 <= j < |items| ==> after[j].id == items[j].id;
    }
  }

  // ---------------------------------------------------------------------------
  // deleteVaultItem

  /** `items.filter(item => item.id !== id)`. */
  function RemoveId(items: seq<VaultItem>, id: int): (r: seq<VaultItem>)
    ensures |r| <= |items|
    ensures forall x :: x in r <==> x in items && x.id != id
    decreases |items|
  {
    if |items| == 0 then []
    else if items[0].id == id then RemoveId(items[1..], id)
    else [items[0]] + RemoveId(items[1..], id)
  }

  /** Filtering keeps relative order: it distributes over concatenation. */
  lemma {:induction false} RemoveIdConcat(a: seq<VaultItem>, b: seq<VaultItem>, id: int)
    ensures RemoveId(a + b, id) == RemoveId(a, id) + RemoveId(b, id)
    decreases |a|
  {
    if |a| > 0 {
      var ab := a + b;
      assert ab[0] == a[0];
      assert ab[1..] == a[1..] + b;
      RemoveIdConcat(a[1..], b, id);
      var rest := RemoveId(a[1..], id);
      if a[0].id == id {
        assert RemoveId(ab, id) == RemoveId(ab[1..], id);
        assert RemoveId(a, id) == rest;
      } else {
        assert RemoveId(ab, id) == [a[0]] + RemoveId(ab[1..], id);
        assert RemoveId(a, id) == [a[0]] + rest;
        assert [a[0]] + (rest + RemoveId(b, id)) == ([a[0]] + rest) + RemoveId(b, id);
      }
    } else {
      assert a + b == b;
    }
  }

  /** Removing an absent id changes nothing. */
  lemma {:induction false} RemoveAbsentId(items: seq<VaultItem>, id: int)
    requires !HasId(items, id)
    ensures RemoveId(items, id) == items
    decreases |items|
  {
    if |items| > 0 {
      assert !HasId(items[1..], id) by {
        forall i | 0 <= i < |items[1..]| ensures items[1..][i].id != id {
          assert items[1..][i] == items[i + 1];
        }
      }
      RemoveAbsentId(items[1..], id);
      assert [items[0]] + items[1..] == items;
    }
  }

  /** Reads the list (a failed read counts as empty), drops every item with
      `id` and writes the rest back (storage call 1). An absent id is no error. */
  function DeleteVaultItem(store: AsyncStore, id: int, faults: Faults): (r: Step<(), VaultError>)
    ensures r.result.Ok? <==> !CallFails(faults, 1)
    ensures r.result.Err? ==> r.store == store
    ensures r.result.Ok? ==>
      && r.store == store[VaultKey := ItemList(RemoveId(GetVaultItems(store, faults), id))]
      && !HasId(GetVaultItems(r.store, NoFault), id)
  {
    var filtered := RemoveId(GetVaultItems(store, faults), id);
    if CallFails(faults, 1) then Step(Err(StorageFailure), store)
    else Step(Ok(()), store[VaultKey := ItemList(filtered)])
  }

  /** Deleting an id that is not stored rewrites the same list. */
  lemma DeleteAbsentIsNoOp(store: AsyncStore, id: int)
    requires VaultKey in store && store[VaultKey].ItemList?
    requires !HasId(store[VaultKey].items, id)
    ensures DeleteVaultItem(store, id, NoFault) == Step(Ok(()), store)
  {
    RemoveAbsentId(store[VaultKey].items, id);
  }

  /** Deleting the same id twice leaves the store as deleting it once. */
  lemma DeleteIdempotent(store: AsyncStore, id: int, faults: Faults)
    requires !CallFails(faults, 1)
    ensures var once := DeleteVaultItem(store, id, faults).store;
      DeleteVaultItem(once, id, NoFault) == Step(Ok(()), once)
  {
    var once := DeleteVaultItem(store, id, faults).store;
    DeleteAbsentIsNoOp(once, id);
  }

  /** When the read fails, delete persists the empty list: every stored item is lost. */
  lemma DeleteAfterFailedReadWipes(store: AsyncStore, id: int)
    ensures DeleteVaultItem(store, id, FailAt(0)).store[VaultKey] == ItemList([])
  {
  }

  // ---------------------------------------------------------------------------
  // clearVault

  /** Removes the "vault_items" key (storage call 0). */
  function ClearVault(store: AsyncStore, faults: Faults): (r: Step<(), VaultError>)
    ensures r.result.Ok? <==> !CallFails(faults, 0)
    ensures r.result.Ok? ==> VaultKey !in r.store && r.store == store - {VaultKey}
    ensures r.result.Ok? ==> forall k :: k in store && k != VaultKey ==> k in r.store && r.store[k] == store[k]
    ensures r.result.Err? ==> r.store == store
  {
    if CallFails(faults, 0) then Step(Err(StorageFailure), store)
    else Step(Ok(()), store - {VaultKey})
  }

  /** After a successful clear the vault reads back empty. */
  lemma ClearThenGetIsEmpty(store: AsyncStore, faults: Faults, readFaults: Faults)
    requires !CallFails(faults, 0)
    ensures GetVaultItems(ClearVault(store, faults).store, readFaults) == []
  {
  }
}

=== FILE: wrappers.dfy ===
/** Option and Result values used in place of JavaScript's `null`/`undefined`
    and thrown exceptions throughout the model. */
module Wrappers {

  /** A value that may be absent (`null` or `undefined` in the source). */
  datatype Option<+T> = None | Some(value: T) {

    /** The wrapped value, or `default` when absent (the `??` operator). */
    function GetOr(default: T): T {
      match this
      case Some(v) => v
      case None => default
    }
  }

  /** The outcome of an operation that may throw: its value, or the error it throws. */
  datatype Result<+T, +E> = Ok(value: T) | Err(error: E)
}
